=== FILE: README.md ===
# Word cipher over linked lists, in Dafny

This project models the encryption exercise of `Examen2Solucion`. It has two layers.

The first layer is a singly linked list of integers. It offers `push`, `shift`, `isEmpty`, `size`, `forEach` and `toArray`, plus `swap`, which exchanges adjacent nodes pairwise by relinking them.

The second layer is the word cipher of `Frase`. `encriptar` splits a text into whitespace-separated words. For each word it pushes `code(ch_i) + 2i + 1` into a fresh list, swaps the list once, and renders the lists with `String.fromCharCode`, joined by single spaces. `desencriptar` swaps each list back and subtracts the same offsets. It can run destructively, shifting the lists off the deque, or non-destructively, indexing into it, and it can return a per-word detail.

The repository holds the same code more than once:
- a second copy of the list in `Examen2Solucion/LinkedList.js`;
- an earlier, encrypt-only `Frase` in `Examen2Solucion/Frase.js`;
- a script, `Examen2.js`, with its own list without `swap` and a function `procesar`. `procesar` splits on single spaces, adds the offsets and logs the lists without swapping them.

Modules:
- `PairSwap` (`pairs.dfy`): the pairwise exchange on plain sequences, `SwapPairs`, and its properties.
- `Text` (`text.dfy`): JavaScript strings as sequences of UTF-16 code units. It covers `split(/\s+/).filter(Boolean)`, `split(' ')`, `join`, code-point iteration with `charCodeAt(0)`, and `String.fromCharCode`, which reduces modulo 2^16.
- `LinkedLists` (`linked_list.dfy`): the list as an arena of nodes.
  - A list is a heap (`seq<Node>`), a `head`, a `tail` and the `_size` counter.
  - `swap` relinks `next` fields exactly as the JavaScript loop does, and never updates `tail`.
  - `Coherent` is what `push` and `shift` need: a chain from `head`, with `head` and `tail` null together. `Valid` adds that `_size` counts the nodes. Neither operation reads `_size`, so both keep working on a list whose count has gone wrong.
  - Every operation is proved to act on `Contents`, the values reachable from `head`.
- `Cipher` (`cipher.dfy`): the cipher on integer sequences, namely the offsets, the encoding of a word and the decoding of a list.
- `WordLists` (`word_lists.dfy`): the per-word list code that both versions of `Frase` share.
- `Frases` (`frases.dfy`): `model/Frase.js`.
- `EarlyFrases` (`early_frases.dfy`): `Examen2Solucion/Frase.js`.
- `QuoteScript` (`quote_script.dfy`): `procesar` of `Examen2.js`.
- `Options` (`options.dfy`): the `null` result of `shift` and a missing constructor argument.

Objects become values: a method that mutates `this` returns the updated value together with what the JavaScript method returns. Calls such as `lista.swap()` on a list held in the deque mutate the shared object. The model writes the new list back at the same index of the deque.

The detail's `nums` are the values after the subtraction (`model/Frase.js:83` pushes `v - inc`), and `DetailOf` holds these decoded codes.

## Model

| member | source | states |
|---|---|---|
| `PairSwap.SwapPairsAt` | Examen2Solucion/model/LinkedList.js:64-82 | After the exchange, position `i` holds the element at `i`'s pair partner. The unpaired last position of an odd length is its own partner. |
| `PairSwap.ShapeOfSwapPairs` | Examen2Solucion/model/LinkedList.js:64-82 | Fewer than two elements stay as they are. Each pair `(2k, 2k+1)` is exchanged. An odd length keeps its last element in place. |
| `PairSwap.SwapPairsInvolution` | Examen2Solucion/model/LinkedList.js:66-82 | Exchanging twice restores the sequence, for even and odd lengths alike. |
| `PairSwap.SwapPairsMultiset` | Examen2Solucion/model/LinkedList.js:66-82 | The exchange is a permutation: no value is lost or duplicated. |
| `PairSwap.SwapPairsLast` | Examen2Solucion/model/LinkedList.js:71-81 | The last element after the exchange is the original last one when the length is odd, and the second-to-last one when it is even. |
| `PairSwap.SwapPairs` | Examen2Solucion/model/LinkedList.js:64-82 | The sequence model of `swap()`: pairs (0,1), (2,3), ... exchanged and an odd last element kept. The contract keeps the length; `SwapPairsAt` gives the element at each position. |
| `Text.IsSpace` | Examen2Solucion/model/Frase.js:21 | The units `\s` matches in `split(/\s+/)`: tab through carriage return, space, no-break space, the Unicode space separators, the line and paragraph separators and the byte-order mark. |
| `Text.SplitWords` | Examen2Solucion/model/Frase.js:21 | Every token of `split(/\s+/).filter(Boolean)` is non-empty and contains no whitespace. |
| `Text.SplitWordsOfWord` | Examen2Solucion/model/Frase.js:21 | A run of non-whitespace units splits into exactly itself. |
| `Text.SplitWordsAtSpace` | Examen2Solucion/model/Frase.js:21 | Words break at every whitespace unit: the words of `a + x + b`, with `x` any `\s` unit, are the words of `a` followed by the words of `b`. |
| `Text.Join` | Examen2Solucion/model/Frase.js:48 | `join(sep)` puts one separator between each two pieces, so the result is as long as the pieces together plus one separator fewer than there are pieces. |
| `Text.JoinSnoc` | Examen2Solucion/model/Frase.js:91 | Joining one more piece onto a non-empty list appends the separator and then the piece. |
| `Text.JoinWordsSingleSpaced` | Examen2Solucion/model/Frase.js:91 | Words joined with `join(' ')` have no whitespace at either end, and each space sits between two non-whitespace units. |
| `Text.SplitWordsKeepsText` | Examen2Solucion/model/Frase.js:21 | The words, concatenated, are exactly the text's non-whitespace units, in order. |
| `Text.SplitJoinWords` | Examen2Solucion/model/Frase.js:46-48 | Splitting the single-space join of words gives back the same words. |
| `Text.Normalize` | Examen2Solucion/model/Frase.js:21 | The whitespace-normalised text, which is what a round trip yields. It has the same words as the original text, no whitespace at either end, and each whitespace unit is a single space between two non-whitespace units. |
| `Text.NormalizeKeepsWords` | Examen2Solucion/model/Frase.js:91 | Joining a text's words with single spaces keeps its word sequence, so normalising is idempotent. |
| `Text.IndexOf` | Examen2.js:71 | The first occurrence of the separator, or the length when it has none. |
| `Text.SplitOn` | Examen2.js:71 | `split(' ')` yields at least one piece, and no piece contains the separator. |
| `Text.JoinSplitOn` | Examen2.js:71 | Joining the pieces of `split(' ')` with the separator restores the input. |
| `Text.SplitOnAppend` | Examen2.js:71 | The pieces of `a + ' ' + b` are the pieces of `a` followed by the pieces of `b`. |
| `Text.AdjacentSeparators` | Examen2.js:71 | Two spaces in a row produce an empty piece between the pieces on either side. |
| `Text.CharCodes` | Examen2Solucion/model/Frase.js:35 | Code-point iteration with `charCodeAt(0)` yields the code units themselves when the text has no surrogate pair. |
| `Text.FromCharCode` | Examen2Solucion/model/Frase.js:47 | `String.fromCharCode` is the identity on code units (0..65535). |
| `Text.Render` | Examen2Solucion/model/Frase.js:84 | `nums.map(n => String.fromCharCode(n)).join('')`: one unit per number, each number reduced modulo 2^16, so a number that is already a code unit is kept. |
| `Text.RenderUnits` | Examen2Solucion/model/Frase.js:84 | Rendering numbers that are already code units gives them back unchanged. |
| `Text.SplitWordsNoSurrogate` | Examen2Solucion/model/Frase.js:21 | The words of a text without surrogate pairs have none either. |
| `LinkedLists.Empty` | Examen2Solucion/model/LinkedList.js:10-14 | A new list is valid, its tail is at its end, and it holds no values. |
| `LinkedLists.Push` | Examen2Solucion/model/LinkedList.js:16-26 | Needs only a coherent list, since `push` never reads `_size`. `_size` grows by one and `tail` names the fresh node. There are three cases. (1) When `tail` was the last node, the value is appended, and a valid list stays valid. (2) When `tail` is an earlier node, the nodes after it are cut off and the fresh node is last. (3) When `tail` is outside the chain, the values are unchanged. |
| `LinkedLists.PushBack` | Examen2Solucion/model/LinkedList.js:16-26 | On a list whose `tail` is its last node, `push` appends the value and keeps both invariants. |
| `LinkedLists.Shift` | Examen2Solucion/model/LinkedList.js:28-35 | Needs only a coherent list, since `shift` never reads `_size`. An empty chain gives null and is unchanged. Otherwise the first value is returned and removed, and `_size` drops by one. `tail` becomes null when the list empties. A valid list stays valid, and a tail at the end stays at the end. No node is written, and `tail` is kept while the list still has values. |
| `LinkedLists.PushAll` | Examen2Solucion/model/LinkedList.js:16-26 | Pushing the values of `vs` in order onto a new list gives a valid list, with its tail at its end, that holds exactly `vs`. |
| `LinkedLists.ShiftAll` | Examen2Solucion/model/LinkedList.js:28-39 | Shifting a valid list until `isEmpty()` yields its values head first. |
| `LinkedLists.PushAllShiftAll` | Examen2Solucion/model/LinkedList.js:16-35 | `push` and `shift` form a first-in first-out queue: values come out in the order they went in. |
| `LinkedLists.IsEmpty` | Examen2Solucion/model/LinkedList.js:37-39 | On a valid list, true exactly when the list holds no values. |
| `LinkedLists.Size` | Examen2Solucion/model/LinkedList.js:41-43 | On a valid list, the number of values reachable from `head`. |
| `LinkedLists.ToArray` | Examen2Solucion/model/LinkedList.js:55-63 | Returns the values in head-to-tail order. |
| `LinkedLists.ForEach` | Examen2Solucion/model/LinkedList.js:45-53 | The callback sees the values in list order with indices 0, 1, ..., n-1. The list is not modified. |
| `LinkedLists.SwapLinks` | Examen2Solucion/model/LinkedList.js:68-81 | The relinking loop leaves a chain through the exchanged node order. Values and arena size are unchanged. `cur ?? prev` at exit is the new last node. |
| `LinkedLists.SwapRound` | Examen2Solucion/model/LinkedList.js:71-81 | One pass of the loop, relinking `next`, `cur` and `prev`, takes an arena linking the order after k exchanged pairs to one linking the order after k + 1, provided the nodes are distinct. |
| `LinkedLists.RelinkRound` | Examen2Solucion/model/LinkedList.js:72-78 | One round of the loop body exchanges pair k: on an arena that links the node order after k rounds, writing `next.next = cur`, `cur.next = nextPair` and `prev.next = next` leaves it linking the order after k + 1 rounds. No value changes, no node other than `prev`, `cur` and `next` is written, and the round hands back `nextPair`, the node after the pair (null when none is left). |
| `LinkedLists.Swap` | Examen2Solucion/model/LinkedList.js:66-82 | The values are exchanged pairwise, and a list of fewer than two values is returned unchanged. `tail` and `_size` are unchanged, so validity is kept. An odd-length list keeps `tail` at its end. An even-length list ends with `tail` on the second-to-last node. |
| `LinkedLists.SwapMeaning` | Examen2Solucion/model/LinkedList.js:66-82 | An arena linking the exchanged node order, with the same values, holds the exchanged values. |
| `LinkedLists.SwapTail` | Examen2Solucion/model/LinkedList.js:66-82 | The `tail` that `swap` leaves behind is the last node at odd lengths and the second-to-last node at even lengths. |
| `LinkedLists.SwapTwice` | Examen2Solucion/model/LinkedList.js:66-82 | Two swaps restore the values of a well-formed list of any length, odd or even, keep its size and tail, and keep a valid list valid. |
| `LinkedLists.PushAfterSwap` | Examen2Solucion/model/LinkedList.js:66-82 | Pushing 1 and 2, swapping, then pushing 9 leaves the values `[2, 9]` with `_size` 3. The list is still coherent with its tail at its end, but it is no longer valid. |
| `LinkedLists.PushShiftAfterSwap` | Examen2Solucion/model/LinkedList.js:16-39 | On that state, `push(10)` appends and `shift()` returns 2, leaving `[9, 10]` while `size()` says 3. Two more shifts empty the list, yet `size()` says 1 and `isEmpty()` is false. |
| `LinkedLists.SwapSettingTail` | Examen2Solucion/model/LinkedList.js:66-82 | The same exchange with `tail` moved to the new last node. This keeps the tail-at-end invariant. |
| `LinkedLists.SwapThenPush` | Examen2Solucion/model/LinkedList.js:16-26 | With the corrected swap, a push after a swap appends to the exchanged values. |
| `Cipher.AddOffsets` | Examen2Solucion/model/Frase.js:34-35 | Position `i` gets `inc + 2i` added and the length is kept. |
| `Cipher.SubOffsets` | Examen2Solucion/model/Frase.js:82-83 | Position `i` gets `inc + 2i` subtracted and the length is kept. |
| `Cipher.OffsetsInverse` | Examen2Solucion/model/Frase.js:82-84 | Subtracting the offsets undoes adding them, and adding undoes subtracting. |
| `Cipher.EncodeWord` | Examen2Solucion/model/Frase.js:34-38 | The values a word's list holds after encryption: one per code point. Swapping them back and subtracting the offsets recovers the code points. |
| `Cipher.DecodeNums` | Examen2Solucion/model/Frase.js:79-83 | The `nums` decryption computes from a list holding `vals`: position `i` takes the value at its pair partner less `2i + 1`, one entry per value. |
| `Cipher.DecodeWord` | Examen2Solucion/model/Frase.js:79-84 | The decrypted text of one list: unit `i` is `String.fromCharCode` of the partner's value less `2i + 1`, one unit per value. |
| `Cipher.EncodeWordAt` | Examen2Solucion/model/Frase.js:34-38 | An encrypted word has the word's length. Position `i` holds `code(ch_j) + 2j + 1`, where `j` is the pair partner of `i`. |
| `Cipher.WordRoundTrip` | Examen2Solucion/model/Frase.js:79-84 | Decrypting an encrypted word recovers its codes and text, for every word without surrogate pairs. |
| `Cipher.SecondDecode` | Examen2Solucion/model/Frase.js:79 | Decrypting a list that was already swapped back yields, at `i`, the partner's code shifted by twice the distance to it. |
| `Cipher.SecondDecodeRestores` | Examen2Solucion/model/Frase.js:79 | The codes a second decryption computes (before `String.fromCharCode` reduces them modulo 2^16) are the word's own codes if and only if, in every pair, the first code is the second plus 2; the rendered text can match in more cases, e.g. for the codes 0, 0xFFFE. |
| `Cipher.SecondDecodeAb` | Examen2Solucion/model/Frase.js:79 | "ab" decrypted a second time reads "d_". |
| `Cipher.TextRoundTrip` | Examen2Solucion/model/Frase.js:91 | Decrypting the lists that encryption builds gives the text's words joined by single spaces, which is the whitespace-normalised text. |
| `WordLists.BuildWordList` | Examen2Solucion/model/Frase.js:32-35 | The fresh list is valid with its tail at its end. Node `i` holds `code(ch_i) + 2i + 1`, and there is one node per code point. |
| `WordLists.EncryptWord` | Examen2Solucion/model/Frase.js:32-38 | The word's list holds its offset codes swapped exactly once. |
| `WordLists.EncryptWords` | Examen2Solucion/model/Frase.js:22-44 | A fresh deque with one valid list per word, in word order. |
| `WordLists.HoldsSnoc` | Examen2Solucion/model/Frase.js:41 | Appending a valid list to a deque appends its values. |
| `WordLists.HoldsContents` | Examen2Solucion/model/Frase.js:46-47 | The values a deque holds are the lists it was built with. |
| `WordLists.RenderDeque` | Examen2Solucion/model/Frase.js:46-48 | Each list is rendered via `toArray` and fromCharCode, and the renderings are joined by single spaces. |
| `WordLists.FoldSubtract` | Examen2Solucion/model/Frase.js:82-83 | Folding the callback `nums.push(v - inc); inc += 2` over the values appends their codes with the offsets subtracted. |
| `WordLists.SubtractOffsets` | Examen2Solucion/model/Frase.js:82-83 | `forEach` with that callback collects the list's values minus `2i + 1`. |
| `Frases.NewFrase` | Examen2Solucion/model/Frase.js:8-13 | A new `Frase` keeps the text, or the empty text, and has no lists and empty results. |
| `Frases.Encriptar` | Examen2Solucion/model/Frase.js:20-55 | The deque is replaced by one list per whitespace-separated word, each with its offset codes swapped once. The returned and stored text is the rendering of those lists, joined by single spaces. |
| `Frases.DetailOf` | Examen2Solucion/model/Frase.js:82-87 | Entry `i` of a word's `nums` is the value at `i`'s pair partner less the `i`-th odd offset `2i + 1`, one entry per value. `texto` renders `nums` with `String.fromCharCode` and equals `DecodeWord` of the values. |
| `Frases.DecryptWord` | Examen2Solucion/model/Frase.js:79-87 | The list is swapped back in place, and the detail holds the decoded codes and their text. |
| `Frases.Desencriptar` | Examen2Solucion/model/Frase.js:64-99 | Every list is decoded in deque order, and the text is the decoded words joined by single spaces. The destructive mode empties the deque. The other mode leaves each list swapped. The result is the text, or the detail with that text. |
| `Frases.DecryptLists` | Examen2Solucion/model/Frase.js:68-89 | In either mode, the `i`-th visited list yields the detail of the `i`-th list. |
| `Frases.DecryptShifting` | Examen2Solucion/model/Frase.js:68-89 | Shifting lists off the deque while any remain visits each list once, in order. |
| `Frases.DecryptInPlace` | Examen2Solucion/model/Frase.js:68-89 | Indexing up to `limite` visits each list once, in order, and leaves it swapped in place. |
| `Frases.DetailTexts` | Examen2Solucion/model/Frase.js:91 | The collected details are those of the lists, and their texts, joined, are the decrypted text. |
| `Frases.EncryptThenDecrypt` | Examen2Solucion/model/Frase.js:8-99 | Constructing, encrypting, then decrypting in either mode yields the whitespace-normalised text, for every text without surrogate pairs. A missing text encrypts to the empty text. The result has the detail shape exactly when it was asked for. The detail has one entry per word, whose `nums` and `texto` are both that word. |
| `Frases.DetailsOfEncoded` | Examen2Solucion/model/Frase.js:82-87 | For an encrypted word, the detail entry holds the word's own codes (after the subtraction) and the word. |
| `Frases.ModesAgree` | Examen2Solucion/model/Frase.js:68-74 | Both modes produce the same text from the same state. |
| `Frases.DecryptTwice` | Examen2Solucion/model/Frase.js:79 | A second non-destructive decryption decodes the unswapped offset codes of each word, not the encrypted ones. |
| `Frases.SwapEncoded` | Examen2Solucion/model/Frase.js:79 | Swapping the encrypted lists back yields the offset codes. |
| `EarlyFrases.NewEarlyFrase` | Examen2Solucion/Frase.js:4-8 | A new earlier `Frase` keeps the text, or the empty text, with no lists and an empty result. |
| `EarlyFrases.EarlyEncriptar` | Examen2Solucion/Frase.js:9-26 | The deque is reset and receives one list per word, in order, each swapped once. The encrypted text is their rendering, joined by single spaces. |
| `EarlyFrases.VersionsAgree` | Examen2Solucion/Frase.js:9-26 | Both versions of `encriptar` produce the same text. |
| `EarlyFrases.EarlyRoundTrip` | Examen2Solucion/Frase.js:9-26 | The earlier class's deque decrypts to the whitespace-normalised text. |
| `QuoteScript.LogLines` | Examen2.js:82-86 | Word `i` (numbered from 1) gets two lines: its values, then a text. |
| `QuoteScript.BuildLists` | Examen2.js:72-81 | One list per piece, in order, holding `code(ch_i) + 2i + 1`, with no swap. |
| `QuoteScript.Procesar` | Examen2.js:69-87 | The text is split on single spaces, empty pieces included. Each list is logged as numbers and then as its rendered values under the "desencriptada" label. |
| `QuoteScript.ShiftedLines` | Examen2.js:83-85 | For list number `n`, the two lines are its values, then those same values rendered, with the offsets still added. |
| `QuoteScript.LogLinesSnoc` | Examen2.js:82-86 | Logging one more list appends its two lines. |
| `QuoteScript.DoubleSpaceEmptyList` | Examen2.js:71-73 | A double space yields an empty piece and an empty list, where whitespace splitting yields no empty word. |
| `QuoteScript.ShownIsShifted` | Examen2.js:84-85 | The "desencriptada" line of a non-empty piece never shows the piece. Its first unit is one higher, modulo 2^16. |
| `QuoteScript.ProcesarA` | Examen2.js:69-87 | `procesar("a")` logs `[98]` and then "b". |
| `QuoteScript.ProcesarSubtracting` | Examen2.js:82-86 | With the offsets subtracted before rendering, each text line shows the piece's code points. |
| `QuoteScript.UndoOffsets` | Examen2.js:84 | Subtracting the offsets from a piece's list and rendering gives its code points. |
| `QuoteScript.ProcesarSubtractingA` | Examen2.js:82-86 | With the correction, `procesar("a")` logs `[98]` and then "a". |

## Copies of the list

The list code appears three times. `Examen2Solucion/LinkedList.js` and the list in `Examen2.js` are line for line the code of `Examen2Solucion/model/LinkedList.js`, minus the comments, and the `Examen2.js` list has no `swap`. The members above model all three copies:

| operation | model/LinkedList.js | LinkedList.js | Examen2.js |
|---|---|---|---|
| `push` | 16-26 | 13-23 | 13-23 |
| `shift` | 28-35 | 24-31 | 24-31 |
| `isEmpty` | 37-39 | 32-34 | 32-34 |
| `size` | 41-43 | 35-37 | 35-37 |
| `forEach` | 45-53 | 38-46 | 38-46 |
| `toArray` | 55-63 | 47-55 | 47-55 |
| `swap` | 66-82 | 56-72 | absent |

## Left out

- The quote fetch of `Examen2.js` (lines 58-67 and 89), `service/EncryptService.js` and `Fase1.js`: network I/O. `procesar` takes the text as a parameter.
- The `systemLogger` and `timesLogger` calls and the `Date.now()` timings in `model/Frase.js`, and the logging utilities in `util/`: telemetry that does not affect any result. The `console.log` calls of `procesar` are modelled, as the returned log lines.
- `util/PerformanceMonitor.js`, `util/SpaceMonitor.js`, `service/experiments.js` and `main.js`: process sampling, runtime introspection, random experiments, file output and orchestration. None of them is part of this model.
- The getters `textoEncriptado` and `textoDesencriptado`: the returned `Frase` value exposes the fields they read.
- `limite = Infinity` in the destructive mode: the loop condition never reads it there.
- Surrogate pairs: `CharCodes` models what `for...of` with `charCodeAt(0)` does with them, keeping only the high unit. The round-trip lemmas require texts without surrogate pairs, because a pair does not survive the cipher.
- JavaScript numbers are modelled as unbounded integers. Every value stays far below 2^53, so no rounding can occur.

## Findings

| source | as written | input that shows it | evidently intended | confidence | as-written member | corrected member |
|---|---|---|---|---|---|---|
| Examen2Solucion/model/LinkedList.js:66-82 | `swap` relinks the nodes but leaves `tail` on the node that was last before the swap | `push(1)`, `push(2)`, `swap()`, `push(9)`: `toArray()` is `[2, 9]` while `size()` is 3 | move `tail` to the new last node, so that later pushes append | medium, not executed | `LinkedLists.PushAfterSwap` | `LinkedLists.SwapSettingTail` |
| Examen2.js:84-85 | the line labelled "desencriptada" renders the list's values, which still carry the offsets | `procesar("a")` logs "b" | subtract the offsets before rendering, so that the line shows the word | low, not executed | `QuoteScript.ProcesarA` | `QuoteScript.ProcesarSubtracting` |

The `Frase` code never pushes onto a list after swapping it, so the stale `tail` does not affect the cipher. `Frases` therefore uses `swap` as written.

=== FILE: cipher.dfy ===
/** The word cipher of `Frase`, stated over plain sequences: a word's code
    units get the running odd offsets 1, 3, 5, ... added, and the offset
    codes are then exchanged pairwise. Decryption exchanges them back and
    subtracts the same offsets. */
module Cipher {
  import opened PairSwap
  import opened Text

  /** The offsets of the encryption loop, which adds a running offset
      starting at `inc` and growing by 2: position `i` gets `inc + 2i`
      added. */
  function AddOffsets(codes: seq<int>, inc: int): (r: seq<int>)
    ensures |r| == |codes|
    ensures forall i {:trigger r[i]} :: 0 <= i < |codes| ==> r[i] == codes[i] + inc + 2 * i
    decreases |codes|
  {
    if codes == [] then [] else [codes[0] + inc] + AddOffsets(codes[1..], inc + 2)
  }

  /** The offsets of the decryption callback, which subtracts the same
      running offset: position `i` gets `inc + 2i` subtracted. */
  function SubOffsets(vals: seq<int>, inc: int): (r: seq<int>)
    ensures |r| == |vals|
    ensures forall i {:trigger r[i]} :: 0 <= i < |vals| ==> r[i] == vals[i] - inc - 2 * i
    decreases |vals|
  {
    if vals == [] then [] else [vals[0] - inc] + SubOffsets(vals[1..], inc + 2)
  }

  /** Subtracting the offsets undoes adding them, and the other way round. */
  lemma OffsetsInverse(codes: seq<int>, inc: int)
    ensures SubOffsets(AddOffsets(codes, inc), inc) == codes
    ensures AddOffsets(SubOffsets(codes, inc), inc) == codes
  {
    var a := AddOffsets(codes, inc);
    var s := SubOffsets(a, inc);
    forall i | 0 <= i < |codes|
      ensures s[i] == codes[i]
    {
      assert a[i] == codes[i] + inc + 2 * i;
    }
    var b := SubOffsets(codes, inc);
    var t := AddOffsets(b, inc);
    forall i | 0 <= i < |codes|
      ensures t[i] == codes[i]
    {
      assert b[i] == codes[i] - inc - 2 * i;
    }
  }

  /** The values a word's list holds after encryption: the offset codes of
      its code points, exchanged pairwise. Exchanging them back and
      subtracting the offsets recovers the code points. */
  function EncodeWord(w: JsString): (r: seq<int>)
    ensures |r| == |CharCodes(w)|
    ensures SubOffsets(SwapPairs(r), 1) == CharCodes(w)
  {
    var a := AddOffsets(CharCodes(w), 1);
    SwapPairsInvolution(a);
    OffsetsInverse(CharCodes(w), 1);
    SwapPairs(a)
  }

  /** The codes decryption recovers from a list holding `vals`: exchange
      back, then subtract the offsets. Position `i` takes the value at its
      pair partner, less the `i`-th odd offset `2i + 1`. */
  function DecodeNums(vals: seq<int>): (r: seq<int>)
    ensures |r| == |vals|
    ensures forall i :: 0 <= i < |vals| ==> r[i] == vals[Partner(i, |vals|)] - (2 * i + 1)
  {
    SwapPairsAll(vals);
    SubOffsets(SwapPairs(vals), 1)
  }

  /** The text of one decrypted word: unit `i` is the partner's value less
      `2i + 1`, reduced to a code unit. */
  function DecodeWord(vals: seq<int>): (r: JsString)
    ensures |r| == |vals|
    ensures forall i :: 0 <= i < |vals| ==> r[i] == FromCharCode(vals[Partner(i, |vals|)] - (2 * i + 1))
  {
    Render(DecodeNums(vals))
  }

  /** Position by position, an encrypted word holds the offset code of its
      pair partner: `code(ch_j) + 2j + 1` with `j` the partner of `i`. */
  lemma EncodeWordAt(w: JsString, i: nat)
    requires NoSurrogatePair(w) && i < |w|
    ensures |EncodeWord(w)| == |w|
    ensures EncodeWord(w)[i] == w[Partner(i, |w|)] + 2 * Partner(i, |w|) + 1
  {
    var c := AddOffsets(CharCodes(w), 1);
    SwapPairsAt(c, i);
    PartnerInRange(i, |w|);
  }

  /** Decrypting the lists of an encrypted word recovers the word's codes
      and so the word itself, for every word in the Basic Multilingual
      Plane. */
  lemma WordRoundTrip(w: JsString)
    requires NoSurrogatePair(w)
    ensures DecodeNums(EncodeWord(w)) == w
    ensures DecodeWord(EncodeWord(w)) == w
  {
    var c := AddOffsets(w, 1);
    SwapPairsInvolution(c);
    OffsetsInverse(w, 1);
    RenderUnits(w);
  }

  /** Decrypting a list that a previous decryption already swapped back
      exchanges its values once more: position `i` recovers the code of its
      pair partner, shifted by twice the distance between them. */
  lemma SecondDecode(w: JsString, i: nat)
    requires NoSurrogatePair(w) && i < |w|
    ensures |DecodeNums(AddOffsets(CharCodes(w), 1))| == |w|
    ensures DecodeNums(AddOffsets(CharCodes(w), 1))[i]
         == w[Partner(i, |w|)] + 2 * (Partner(i, |w|) - i)
  {
    var c := AddOffsets(w, 1);
    SwapPairsAt(c, i);
    PartnerInRange(i, |w|);
  }

  /** So the codes a second decryption computes are the word's own codes
      exactly when, in every pair, the first code is the second plus 2; for
      "ab" they are not. This is about the codes before `String.fromCharCode`
      reduces them modulo 2^16: the rendered text can still match, e.g. for
      the codes 0, 0xFFFE. */
  lemma SecondDecodeRestores(w: JsString)
    requires NoSurrogatePair(w)
    ensures DecodeNums(AddOffsets(CharCodes(w), 1)) == w <==> PairsTwoApart(w)
  {
    if DecodeNums(AddOffsets(CharCodes(w), 1)) == w {
      SecondDecodeOnlyIf(w);
    }
    if PairsTwoApart(w) {
      SecondDecodeIf(w);
    }
  }

  /** "ab" (codes 97, 98) decrypted a second time reads "d_" (100, 95). */
  lemma SecondDecodeAb()
    ensures DecodeNums(AddOffsets([97, 98], 1)) == [100, 95]
    ensures !PairsTwoApart([97, 98])
  {
    var c := AddOffsets([97, 98], 1);
    assert c == [98, 101];
    assert SwapPairs(c) == [101, 98];
  }

  /** In every pair of positions `(2k, 2k + 1)`, the first code is the
      second plus 2. */
  ghost predicate PairsTwoApart(w: JsString)
  {
    forall k :: 0 <= k && 2 * k + 1 < |w| ==> w[2 * k] as int == w[2 * k + 1] as int + 2
  }

  lemma SecondDecodeOnlyIf(w: JsString)
    requires NoSurrogatePair(w) && DecodeNums(AddOffsets(CharCodes(w), 1)) == w
    ensures PairsTwoApart(w)
  {
    forall k | 0 <= k && 2 * k + 1 < |w|
      ensures w[2 * k] as int == w[2 * k + 1] as int + 2
    {
      SecondDecode(w, 2 * k);
      PartnerOfPair(k, |w|);
    }
  }

  lemma SecondDecodeIf(w: JsString)
    requires NoSurrogatePair(w) && PairsTwoApart(w)
    ensures DecodeNums(AddOffsets(CharCodes(w), 1)) == w
  {
    var r := DecodeNums(AddOffsets(CharCodes(w), 1));
    forall i | 0 <= i < |w|
      ensures r[i] == w[i]
    {
      SecondDecodeIfAt(w, i);
    }
  }

  lemma SecondDecodeIfAt(w: JsString, i: nat)
    requires NoSurrogatePair(w) && PairsTwoApart(w) && i < |w|
    ensures DecodeNums(AddOffsets(CharCodes(w), 1))[i] == w[i]
  {
    SecondDecode(w, i);
    var k := i / 2;
    if i % 2 == 1 {
      assert i == 2 * k + 1;
      PartnerOfPair(k, |w|);
    } else if i + 1 < |w| {
      assert i == 2 * k;
      PartnerOfPair(k, |w|);
    } else {
      assert Partner(i, |w|) == i;
    }
  }

  /** The lists `encriptar` builds for the words `ws`, after their swap. */
  function EncodeAll(ws: seq<JsString>): (lists: seq<seq<int>>)
    ensures |lists| == |ws|
  {
    seq(|ws|, i requires 0 <= i < |ws| => EncodeWord(ws[i]))
  }

  /** The lists of offset codes of the words `ws`, before any swap. */
  function OffsetLists(ws: seq<JsString>): (lists: seq<seq<int>>)
    ensures |lists| == |ws|
    ensures forall i :: 0 <= i < |ws| ==> lists[i] == AddOffsets(CharCodes(ws[i]), 1)
  {
    seq(|ws|, i requires 0 <= i < |ws| => AddOffsets(CharCodes(ws[i]), 1))
  }

  /** The encrypted text: every list rendered with `String.fromCharCode`,
      the renderings joined by single spaces. */
  function RenderAll(lists: seq<seq<int>>): JsString
  {
    Join(seq(|lists|, i requires 0 <= i < |lists| => Render(lists[i])), Space)
  }

  /** The decrypted text: every list decoded, the words joined by single
      spaces. */
  function DecodeAll(lists: seq<seq<int>>): JsString
  {
    Join(seq(|lists|, i requires 0 <= i < |lists| => DecodeWord(lists[i])), Space)
  }

  /** Decrypting the lists that encrypting a text built gives back the
      text with its whitespace normalised: its words, in order, joined by
      single spaces. */
  lemma TextRoundTrip(s: JsString)
    requires NoSurrogatePair(s)
    ensures DecodeAll(EncodeAll(SplitWords(s))) == Normalize(s)
  {
    var ws := SplitWords(s);
    var lists := EncodeAll(ws);
    SplitWordsNoSurrogate(s);
    forall i | 0 <= i < |ws|
      ensures DecodeWord(lists[i]) == ws[i]
    {
      WordRoundTrip(ws[i]);
    }
    assert seq(|lists|, i requires 0 <= i < |lists| => DecodeWord(lists[i])) == ws;
  }
}

=== FILE: early_frases.dfy ===
/** The earlier `Frase` of `Examen2Solucion/Frase.js`: encryption only,
    without logging. It builds the same deque and the same text as the
    later class. */
module EarlyFrases {
  import opened Options
  import opened Text
  import opened Cipher
  import opened LinkedLists
  import opened WordLists
  import Frases

  /** The fields of the earlier `Frase`; the getter `textoEncriptado`
      reads the last one. */
  datatype EarlyFrase = EarlyFrase(
    textoOriginal: JsString,
    deque: seq<LinkedList>,
    textoEncriptado: JsString)

  /** `new Frase(texto)`: `texto ?? ""`, no lists, no encrypted text. */
  function NewEarlyFrase(texto: Option<JsString>): (f: EarlyFrase)
    ensures texto.Some? ==> f.textoOriginal == texto.value
    ensures texto.None? ==> f.textoOriginal == []
    ensures f.deque == [] && f.textoEncriptado == []
  {
    EarlyFrase(Frases.OrEmpty(texto), [], [])
  }

  /** `encriptar()`: reset the deque, append one list per word in order
      (offset codes, swapped once), and return (and keep) their
      renderings joined by single spaces. */
  method EarlyEncriptar(f: EarlyFrase) returns (f': EarlyFrase, r: JsString)
    ensures f'.textoOriginal == f.textoOriginal
    ensures Holds(f'.deque, EncodeAll(SplitWords(f.textoOriginal)))
    ensures r == f'.textoEncriptado
    ensures r == RenderAll(EncodeAll(SplitWords(f.textoOriginal)))
  {
    var palabras := SplitWords(f.textoOriginal);
    var deque := EncryptWords(palabras);
    HoldsContents(deque, EncodeAll(palabras));
    r := RenderDeque(deque);
    f' := f.(deque := deque, textoEncriptado := r);
  }

  /** Both versions of `Frase`, constructed from the same text, encrypt it
      to the same text. */
  method VersionsAgree(texto: Option<JsString>) returns (early: JsString, later: JsString)
    ensures early == later
  {
    var f0 := NewEarlyFrase(texto);
    var f1, r1 := EarlyEncriptar(f0);
    var g0 := Frases.NewFrase(texto);
    var g1, r2 := Frases.Encriptar(g0);
    early, later := r1, r2;
  }

  /** The deque the earlier `encriptar` leaves decrypts, with the later
      class's `desencriptar`, to the whitespace-normalised text. */
  method EarlyRoundTrip(texto: JsString, destructivo: bool) returns (res: JsString)
    requires NoSurrogatePair(texto)
    ensures res == Normalize(texto)
  {
    var f0 := NewEarlyFrase(Some(texto));
    var f1, _ := EarlyEncriptar(f0);
    HoldsContents(f1.deque, EncodeAll(SplitWords(texto)));
    var g := Frases.Frase(f1.textoOriginal, f1.deque, f1.textoEncriptado, []);
    var g', d := Frases.Desencriptar(g, destructivo, false);
    res := Frases.Completo(d);
    TextRoundTrip(texto);
  }
}

=== FILE: frases.dfy ===
/** The `Frase` class of `model/Frase.js`: a text, the deque of per-word
    lists that `encriptar` fills, and the last encrypted and decrypted
    texts. Objects become values: each operation returns the updated
    `Frase` together with what the JavaScript method returns. */
module Frases {
  import opened Options
  import opened PairSwap
  import opened Text
  import opened Cipher
  import opened LinkedLists
  import opened WordLists

  /** The fields of a `Frase`; the getters `textoEncriptado` and
      `textoDesencriptado` read the last two. */
  datatype Frase = Frase(
    textoOriginal: JsString,
    deque: seq<LinkedList>,
    textoEncriptado: JsString,
    textoDesencriptado: JsString)

  /** `texto ?? ''`: a missing (`null` or `undefined`) text is empty. */
  function OrEmpty(texto: Option<JsString>): (t: JsString)
    ensures texto.Some? ==> t == texto.value
    ensures texto.None? ==> t == []
  {
    match texto
    case None => []
    case Some(s) => s
  }

  /** `new Frase(texto)`: no lists and no results yet. */
  function NewFrase(texto: Option<JsString>): (f: Frase)
    ensures f.textoOriginal == OrEmpty(texto)
    ensures f.deque == [] && f.textoEncriptado == [] && f.textoDesencriptado == []
  {
    Frase(OrEmpty(texto), [], [], [])
  }

  /** `encriptar()`: split the text into its whitespace-separated words,
      replace the deque by one list per word in order, each holding the
      word's offset codes swapped pairwise, and return (and keep) the
      lists rendered with `String.fromCharCode` and joined by single
      spaces. */
  method Encriptar(f: Frase) returns (f': Frase, r: JsString)
    ensures f'.textoOriginal == f.textoOriginal
    ensures f'.textoDesencriptado == f.textoDesencriptado
    ensures Holds(f'.deque, EncodeAll(SplitWords(f.textoOriginal)))
    ensures r == f'.textoEncriptado
    ensures r == RenderAll(EncodeAll(SplitWords(f.textoOriginal)))
  {
    var palabras := SplitWords(f.textoOriginal);
    var deque := EncryptWords(palabras);
    HoldsContents(deque, EncodeAll(palabras));
    r := RenderDeque(deque);
    f' := f.(deque := deque, textoEncriptado := r);
  }

  /** One word's entry in the detailed result: its codes after the
      subtraction, and their rendering. */
  datatype WordDetail = WordDetail(nums: seq<int>, texto: JsString)

  /** What `desencriptar` returns: the text alone, or with
      `retornarDetalle` the object `{ palabras, textoCompleto }`. */
  datatype Decrypted =
    | Plain(text: JsString)
    | Detail(palabras: seq<WordDetail>, textoCompleto: JsString)

  /** The detail entry decryption produces from a list holding `vals`:
      entry `i` of `nums` is the value at `i`'s pair partner less the
      `i`-th odd offset, and `texto` renders `nums`. */
  function DetailOf(vals: seq<int>): (d: WordDetail)
    ensures |d.nums| == |vals|
    ensures forall i :: 0 <= i < |vals| ==> d.nums[i] == vals[Partner(i, |vals|)] - (2 * i + 1)
    ensures d.texto == Render(d.nums)
    ensures d.texto == DecodeWord(vals)
  {
    WordDetail(DecodeNums(vals), Render(DecodeNums(vals)))
  }

  /** Lines 79-84 of `desencriptar` for one list: swap it back in place,
      then read it with `forEach` subtracting the offsets. */
  method DecryptWord(lista: LinkedList) returns (lista': LinkedList, d: WordDetail)
    requires Valid(lista)
    ensures Valid(lista') && Contents(lista') == SwapPairs(Contents(lista))
    ensures d == DetailOf(Contents(lista))
  {
    lista' := Swap(lista);
    var nums := SubtractOffsets(lista');
    d := WordDetail(nums, Render(nums));
  }

  /** The texts of the detail entries. */
  function Texts(ds: seq<WordDetail>): (ts: seq<JsString>)
    ensures |ts| == |ds|
    ensures forall i :: 0 <= i < |ds| ==> ts[i] == ds[i].texto
  {
    seq(|ds|, i requires 0 <= i < |ds| => ds[i].texto)
  }

  /** `desencriptar({ destructivo, retornarDetalle })`. Every list is
      swapped back and read with the offsets subtracted, in deque order;
      the decrypted text is the words joined by single spaces. The
      destructive mode takes the lists off the deque, leaving it empty;
      the other mode indexes into it and leaves each list swapped in
      place, so the deque keeps its length but now holds the exchanged
      values. Both modes produce the same text. */
  method Desencriptar(f: Frase, destructivo: bool, retornarDetalle: bool) returns (f': Frase, res: Decrypted)
    requires AllValid(f.deque)
    ensures f'.textoOriginal == f.textoOriginal && f'.textoEncriptado == f.textoEncriptado
    ensures destructivo ==> f'.deque == []
    ensures !destructivo ==> Holds(f'.deque, SwapAll(ContentsAll(f.deque)))
    ensures f'.textoDesencriptado == DecodeAll(ContentsAll(f.deque))
    ensures retornarDetalle ==> res == Detail(DetailsOf(ContentsAll(f.deque)), f'.textoDesencriptado)
    ensures !retornarDetalle ==> res == Plain(f'.textoDesencriptado)
  {
    ghost var lists := ContentsAll(f.deque);
    var deque, palabrasDet := DecryptLists(f.deque, destructivo, lists);
    var completo := Join(Texts(palabrasDet), Space);
    DetailTexts(lists, palabrasDet);
    f' := f.(deque := deque, textoDesencriptado := completo);
    res := if retornarDetalle then Detail(palabrasDet, completo) else Plain(completo);
  }

  /** The loop of `desencriptar` (lines 74-89 of `model/Frase.js`). Its
      condition tests the mode flag first in each disjunct, so the mode is
      fixed for the whole loop and each mode is its own loop here. Either
      way the `i`-th visited list yields the detail of its values. */
  method DecryptLists(d0: seq<LinkedList>, destructivo: bool, ghost lists: seq<seq<int>>)
    returns (deque: seq<LinkedList>, palabrasDet: seq<WordDetail>)
    requires |lists| == |d0|
    requires forall j :: 0 <= j < |d0| ==> Valid(d0[j]) && Contents(d0[j]) == lists[j]
    ensures destructivo ==> deque == []
    ensures !destructivo ==> Holds(deque, SwapAll(lists))
    ensures |palabrasDet| == |lists|
    ensures forall j :: 0 <= j < |lists| ==> palabrasDet[j] == DetailOf(lists[j])
  {
    if destructivo {
      palabrasDet := DecryptShifting(d0, lists);
      deque := [];
    } else {
      deque, palabrasDet := DecryptInPlace(d0, lists);
    }
  }

  /** The destructive mode: `shift` lists off the deque while any remain. */
  method DecryptShifting(d0: seq<LinkedList>, ghost lists: seq<seq<int>>) returns (palabrasDet: seq<WordDetail>)
    requires |lists| == |d0|
    requires forall j :: 0 <= j < |d0| ==> Valid(d0[j]) && Contents(d0[j]) == lists[j]
    ensures |palabrasDet| == |lists|
    ensures forall j :: 0 <= j < |lists| ==> palabrasDet[j] == DetailOf(lists[j])
  {
    var deque := d0;
    palabrasDet := [];
    ghost var i := 0;
    while |deque| > 0
      invariant 0 <= i <= |d0| && deque == d0[i..]
      invariant |palabrasDet| == i
      invariant forall j :: 0 <= j < i ==> palabrasDet[j] == DetailOf(lists[j])
      decreases |deque|
    {
      var lista := deque[0];
      deque := deque[1..];
      var d;
      lista, d := DecryptWord(lista);
      palabrasDet := palabrasDet + [d];
      i := i + 1;
    }
  }

  /** The non-destructive mode: visit indices `0 .. limite - 1`, with
      `limite` the deque's length, and write each swapped list back in its
      place. */
  method DecryptInPlace(d0: seq<LinkedList>, ghost lists: seq<seq<int>>)
    returns (deque: seq<LinkedList>, palabrasDet: seq<WordDetail>)
    requires |lists| == |d0|
    requires forall j :: 0 <= j < |d0| ==> Valid(d0[j]) && Contents(d0[j]) == lists[j]
    ensures Holds(deque, SwapAll(lists))
    ensures |palabrasDet| == |lists|
    ensures forall j :: 0 <= j < |lists| ==> palabrasDet[j] == DetailOf(lists[j])
  {
    deque := d0;
    palabrasDet := [];
    var limite := |d0|;
    var i := 0;
    while i < limite
      invariant 0 <= i <= |d0| && |deque| == |d0|
      invariant forall j :: i <= j < |d0| ==> deque[j] == d0[j]
      invariant forall j :: 0 <= j < i ==> Valid(deque[j]) && Contents(deque[j]) == SwapPairs(lists[j])
      invariant |palabrasDet| == i
      invariant forall j :: 0 <= j < i ==> palabrasDet[j] == DetailOf(lists[j])
    {
      var lista := deque[i];
      i := i + 1;
      var d;
      lista, d := DecryptWord(lista);
      WriteBack(d0, deque, lists, i - 1, lista);
      deque := deque[i - 1 := lista];
      palabrasDet := palabrasDet + [d];
    }
    DequeSwapped(deque, lists);
  }

  /** Writing the swapped list `l` back at index `i` extends the swapped
      prefix by one and keeps the rest of the deque as it was. */
  lemma WriteBack(d0: seq<LinkedList>, deque: seq<LinkedList>, lists: seq<seq<int>>, i: nat, l: LinkedList)
    requires |deque| == |d0| == |lists| && i < |d0|
    requires forall j :: i <= j < |d0| ==> deque[j] == d0[j]
    requires forall j :: 0 <= j < i ==> Valid(deque[j]) && Contents(deque[j]) == SwapPairs(lists[j])
    requires Valid(l) && Contents(l) == SwapPairs(lists[i])
    ensures forall j :: i + 1 <= j < |d0| ==> deque[i := l][j] == d0[j]
    ensures forall j :: 0 <= j < i + 1 ==> Valid(deque[i := l][j]) && Contents(deque[i := l][j]) == SwapPairs(lists[j])
  {
  }

  /** Each list's values exchanged pairwise. */
  function SwapAll(lists: seq<seq<int>>): (r: seq<seq<int>>)
    ensures |r| == |lists|
    ensures forall i :: 0 <= i < |lists| ==> r[i] == SwapPairs(lists[i])
  {
    seq(|lists|, i requires 0 <= i < |lists| => SwapPairs(lists[i]))
  }

  /** The detail entry of each list. */
  function DetailsOf(lists: seq<seq<int>>): (ds: seq<WordDetail>)
    ensures |ds| == |lists|
    ensures forall i :: 0 <= i < |lists| ==> ds[i] == DetailOf(lists[i])
  {
    seq(|lists|, i requires 0 <= i < |lists| => DetailOf(lists[i]))
  }

  /** The collected detail entries are those of the lists, and their
      texts joined are the decrypted text. */
  lemma DetailTexts(lists: seq<seq<int>>, ds: seq<WordDetail>)
    requires |ds| == |lists| && forall j :: 0 <= j < |lists| ==> ds[j] == DetailOf(lists[j])
    ensures ds == DetailsOf(lists)
    ensures Join(Texts(ds), Space) == DecodeAll(lists)
  {
    assert Texts(ds) == seq(|lists|, i requires 0 <= i < |lists| => DecodeWord(lists[i]));
  }

  /** After the non-destructive loop, the deque holds every list swapped. */
  lemma DequeSwapped(d: seq<LinkedList>, lists: seq<seq<int>>)
    requires |d| == |lists|
    requires forall j :: 0 <= j < |d| ==> Valid(d[j]) && Contents(d[j]) == SwapPairs(lists[j])
    ensures Holds(d, SwapAll(lists))
  {
  }

  /** The text of a decryption result, in either shape. */
  function Completo(res: Decrypted): JsString
  {
    match res
    case Plain(t) => t
    case Detail(_, t) => t
  }

  /** `new Frase(texto)`, `encriptar()`, then `desencriptar(...)` in either
      mode: the result is the whitespace-normalised text (its words joined
      by single spaces), for every text in the Basic Multilingual Plane. A
      missing text encrypts to the empty text with an empty deque. */
  method EncryptThenDecrypt(texto: Option<JsString>, destructivo: bool, retornarDetalle: bool)
    returns (encriptado: JsString, res: Decrypted)
    requires NoSurrogatePair(OrEmpty(texto))
    ensures texto.None? ==> encriptado == []
    ensures Completo(res) == Normalize(OrEmpty(texto))
    ensures res.Detail? <==> retornarDetalle
    ensures res.Detail? ==>
              var ws := SplitWords(OrEmpty(texto));
              && |res.palabras| == |ws|
              && forall i :: 0 <= i < |ws| ==> res.palabras[i] == WordDetail(ws[i], ws[i])
  {
    var f := NewFrase(texto);
    var f1;
    f1, encriptado := Encriptar(f);
    HoldsContents(f1.deque, EncodeAll(SplitWords(f.textoOriginal)));
    var f2;
    f2, res := Desencriptar(f1, destructivo, retornarDetalle);
    TextRoundTrip(OrEmpty(texto));
    DetailsOfEncoded(OrEmpty(texto));
  }

  /** The detail of each encrypted word holds the word's own codes, after
      the subtraction, and the word itself. */
  lemma DetailsOfEncoded(s: JsString)
    requires NoSurrogatePair(s)
    ensures var ws := SplitWords(s);
            forall i :: 0 <= i < |ws| ==> DetailsOf(EncodeAll(ws))[i] == WordDetail(ws[i], ws[i])
  {
    var ws := SplitWords(s);
    SplitWordsNoSurrogate(s);
    forall i | 0 <= i < |ws|
      ensures DetailsOf(EncodeAll(ws))[i] == WordDetail(ws[i], ws[i])
    {
      WordRoundTrip(ws[i]);
    }
  }

  /** On the same state, the destructive and the non-destructive mode
      produce the same text; the first leaves no lists, the second keeps
      their number. */
  method ModesAgree(f: Frase) returns (a: JsString, b: JsString)
    requires AllValid(f.deque)
    ensures a == b
  {
    var f1, r1 := Desencriptar(f, true, false);
    var f2, r2 := Desencriptar(f, false, false);
    a, b := Completo(r1), Completo(r2);
  }

  /** Decrypting twice in the non-destructive mode: the first time gives
      the normalised text; the second swaps every list again and so
      decodes the lists of offset codes `OffsetLists(ws)` of the words,
      whose codes by `SecondDecodeRestores` are a word's own codes only in
      special cases. */
  method DecryptTwice(texto: JsString) returns (first: JsString, second: JsString)
    requires NoSurrogatePair(texto)
    ensures first == Normalize(texto)
    ensures second == DecodeAll(OffsetLists(SplitWords(texto)))
  {
    var f := NewFrase(Some(texto));
    var f1, _ := Encriptar(f);
    var ws := SplitWords(texto);
    HoldsContents(f1.deque, EncodeAll(ws));
    var f2, r1 := Desencriptar(f1, false, false);
    first := Completo(r1);
    TextRoundTrip(texto);
    SwapEncoded(ws);
    HoldsContents(f2.deque, OffsetLists(ws));
    var f3, r2 := Desencriptar(f2, false, false);
    second := Completo(r2);
  }

  /** Swapping the encrypted lists back yields the plain offset codes. */
  lemma SwapEncoded(ws: seq<JsString>)
    ensures SwapAll(EncodeAll(ws)) == OffsetLists(ws)
  {
    var e := EncodeAll(ws);
    forall i | 0 <= i < |ws|
      ensures SwapAll(e)[i] == OffsetLists(ws)[i]
    {
      SwapPairsInvolution(AddOffsets(CharCodes(ws[i]), 1));
    }
  }
}

=== FILE: linked_list.dfy ===
/** The singly-linked integer list of `model/LinkedList.js`, with its nodes
    held in an arena: a node is addressed by its index in the heap, and a
    `next` link is an address or null. A list value carries the whole
    arena, its `head` and `tail` links and its `_size` counter, so each
    operation returns the updated list instead of mutating it. */
module LinkedLists {
  import opened Options
  import opened PairSwap

  datatype Ptr = Null | Ref(addr: int)

  datatype Node = Node(value: int, next: Ptr)

  type Heap = seq<Node>

  datatype LinkedList = LinkedList(heap: Heap, head: Ptr, tail: Ptr, size: int)

  /** The link to the first of `addrs`, or null when there is none. */
  function First(addrs: seq<int>): Ptr
  {
    if addrs == [] then Null else Ref(addrs[0])
  }

  /** The link that follows position `i` in the node order `addrs`. */
  function Succ(addrs: seq<int>, i: nat): Ptr
  {
    if i + 1 < |addrs| then Ref(addrs[i + 1]) else Null
  }

  ghost predicate Distinct(addrs: seq<int>)
  {
    forall i, j :: 0 <= i < j < |addrs| ==> addrs[i] != addrs[j]
  }

  /** The nodes `addrs` are heap cells and each one links to the next, the
      last one to null. */
  ghost predicate Linked(h: Heap, addrs: seq<int>)
  {
    && (forall i :: 0 <= i < |addrs| ==> 0 <= addrs[i] < |h|)
    && (forall i, j {:trigger h[addrs[i]], addrs[j]} ::
          0 <= i && j == i + 1 && j < |addrs| ==> h[addrs[i]].next == Ref(addrs[j]))
    && (addrs != [] ==> h[addrs[|addrs| - 1]].next == Null)
  }

  /** `Linked`, from the link of every position. */
  lemma LinkedFrom(h: Heap, addrs: seq<int>)
    requires forall i :: 0 <= i < |addrs| ==> 0 <= addrs[i] < |h|
    requires forall i :: 0 <= i < |addrs| ==> h[addrs[i]].next == Succ(addrs, i)
    ensures Linked(h, addrs)
  {
    if addrs != [] {
      assert h[addrs[|addrs| - 1]].next == Succ(addrs, |addrs| - 1);
    }
  }

  /** The link of one position of a linked order. */
  lemma LinkedAt(h: Heap, addrs: seq<int>, i: nat)
    requires Linked(h, addrs) && i < |addrs|
    ensures 0 <= addrs[i] < |h| && h[addrs[i]].next == Succ(addrs, i)
  {
    if i + 1 < |addrs| {
      assert addrs[i + 1] == addrs[i + 1];
    }
  }

  /** Following `next` from `p` visits exactly the distinct nodes `addrs`
      and then reaches null. */
  ghost predicate IsChain(h: Heap, p: Ptr, addrs: seq<int>)
  {
    p == First(addrs) && Distinct(addrs) && Linked(h, addrs)
  }

  /** The chain that starts after the first node of a chain. */
  lemma ChainRest(h: Heap, a: seq<int>)
    requires Distinct(a) && Linked(h, a) && a != []
    ensures IsChain(h, h[a[0]].next, a[1..])
  {
    assert forall i :: 0 <= i < |a[1..]| ==> Succ(a[1..], i) == Succ(a, i + 1);
  }

  /** A chain from a given link is unique. */
  lemma {:induction false} ChainUnique(h: Heap, p: Ptr, a: seq<int>, b: seq<int>)
    requires IsChain(h, p, a) && IsChain(h, p, b)
    ensures a == b
    decreases |a|
  {
    if p != Null {
      ChainRest(h, a);
      ChainRest(h, b);
      ChainUnique(h, h[a[0]].next, a[1..], b[1..]);
      assert a == [a[0]] + a[1..] && b == [b[0]] + b[1..];
    }
  }

  /** Following `next` from the head terminates: the chain is acyclic and
      every link points into the arena. */
  ghost predicate WellFormed(l: LinkedList)
  {
    exists addrs :: IsChain(l.heap, l.head, addrs)
  }

  /** The nodes of the list, head first. */
  ghost function Nodes(l: LinkedList): (addrs: seq<int>)
    requires WellFormed(l)
    ensures IsChain(l.heap, l.head, addrs)
  {
    var addrs :| IsChain(l.heap, l.head, addrs); addrs
  }

  lemma NodesAre(l: LinkedList, addrs: seq<int>)
    requires IsChain(l.heap, l.head, addrs)
    ensures WellFormed(l) && Nodes(l) == addrs
  {
    ChainUnique(l.heap, l.head, Nodes(l), addrs);
  }

  ghost function Values(h: Heap, addrs: seq<int>): seq<int>
    requires forall i :: 0 <= i < |addrs| ==> 0 <= addrs[i] < |h|
  {
    seq(|addrs|, i requires 0 <= i < |addrs| => h[addrs[i]].value)
  }

  /** The values the list holds, head first: what `toArray` returns. */
  ghost function Contents(l: LinkedList): seq<int>
    requires WellFormed(l)
  {
    Values(l.heap, Nodes(l))
  }

  /** What `push` and `shift` need to run: a well-formed chain, `head`
      and `tail` null together, and `tail` a cell of the arena. Neither
      reads `_size`, so this says nothing about it, nor about where `tail`
      points: `swap` moves nodes without updating it. */
  ghost predicate Coherent(l: LinkedList)
  {
    && WellFormed(l)
    && (l.head == Null <==> l.tail == Null)
    && (l.tail.Ref? ==> 0 <= l.tail.addr < |l.heap|)
  }

  /** The invariant every list operation keeps when used as intended: a
      coherent list whose `_size` counts its nodes. */
  ghost predicate Valid(l: LinkedList)
  {
    Coherent(l) && l.size == |Nodes(l)|
  }

  /** The head/tail invariant in full: `tail` is the last node. `push` and
      `shift` keep it; `swap` breaks it on lists of even length. */
  ghost predicate TailAtEnd(l: LinkedList)
    requires WellFormed(l)
  {
    var addrs := Nodes(l);
    l.tail == (if addrs == [] then Null else Ref(addrs[|addrs| - 1]))
  }

  /** `new LinkedList()`. */
  function Empty(): (l: LinkedList)
    ensures Valid(l) && TailAtEnd(l)
    ensures Contents(l) == []
  {
    var l := LinkedList([], Null, Null, 0);
    NodesAre(l, []);
    l
  }

  /** Overwrite the `next` link of cell `x`, keeping its value. */
  function SetNext(h: Heap, x: int, p: Ptr): (h': Heap)
    requires 0 <= x < |h|
  {
    h[x := Node(h[x].value, p)]
  }

  /** `push(value)`: a fresh node is linked after `tail` (or becomes the
      head of an empty list) and `_size` grows by one. When `tail` is the
      last node this appends `v`. When a `swap` has left `tail` on an
      earlier node, the nodes after it are cut off; when it is left on a
      node no longer in the list, the new node is unreachable. */
  function Push(l: LinkedList, v: int): (l': LinkedList)
    requires Coherent(l)
    ensures Coherent(l')
    ensures l'.size == l.size + 1
    ensures l'.tail == Ref(|l.heap|)
    ensures TailAtEnd(l) ==> TailAtEnd(l') && Contents(l') == Contents(l) + [v]
    ensures Valid(l) && TailAtEnd(l) ==> Valid(l')
    ensures l.tail.Ref? && l.tail.addr in Nodes(l) ==>
              && TailAtEnd(l')
              && exists j :: 0 <= j < |Nodes(l)| && Nodes(l)[j] == l.tail.addr
                          && Contents(l') == Contents(l)[..j + 1] + [v]
    ensures l.tail.Ref? && l.tail.addr !in Nodes(l) ==> Contents(l') == Contents(l)
  {
    var n := |l.heap|;
    var a := Nodes(l);
    if l.head == Null then
      var l' := LinkedList(l.heap + [Node(v, Null)], Ref(n), Ref(n), l.size + 1);
      assert IsChain(l'.heap, l'.head, [n]);
      NodesAre(l', [n]);
      l'
    else
      var t := l.tail.addr;
      var h' := SetNext(l.heap, t, Ref(n)) + [Node(v, Null)];
      var l' := LinkedList(h', l.head, Ref(n), l.size + 1);
      PushLinks(l, v, l');
      l'
  }

  /** `push(value)` on a list whose `tail` is its last node, as every list
      built only by `push` and `shift` is: the value is appended. */
  method PushBack(l: LinkedList, v: int) returns (l': LinkedList)
    requires Valid(l) && TailAtEnd(l)
    ensures Valid(l') && TailAtEnd(l')
    ensures Contents(l') == Contents(l) + [v]
  {
    l' := Push(l, v);
  }

  /** The chain after `push` on a non-empty list, in each of the three
      positions `tail` can hold. */
  lemma PushLinks(l: LinkedList, v: int, l': LinkedList)
    requires Coherent(l) && l.head != Null
    requires l'.head == l.head && l'.size == l.size + 1 && l'.tail == Ref(|l.heap|)
    requires l'.heap == SetNext(l.heap, l.tail.addr, Ref(|l.heap|)) + [Node(v, Null)]
    ensures WellFormed(l')
    ensures TailAtEnd(l) ==> TailAtEnd(l') && Contents(l') == Contents(l) + [v]
    ensures Valid(l) && TailAtEnd(l) ==> Valid(l')
    ensures l.tail.addr in Nodes(l) ==>
              && TailAtEnd(l')
              && exists j :: 0 <= j < |Nodes(l)| && Nodes(l)[j] == l.tail.addr
                          && Contents(l') == Contents(l)[..j + 1] + [v]
    ensures l.tail.addr !in Nodes(l) ==> Contents(l') == Contents(l)
  {
    var a := Nodes(l);
    var t := l.tail.addr;
    if t in a {
      var j :| 0 <= j < |a| && a[j] == t;
      LinkAfter(l.heap, a, j, v);
      NodesAre(l', a[..j + 1] + [|l.heap|]);
      assert TailAtEnd(l');
      if TailAtEnd(l) {
        assert j == |a| - 1;
        assert a[..j + 1] == a;
      }
    } else {
      LinkOutside(l.heap, a, t, v);
      NodesAre(l', a);
    }
  }

  /** Linking a fresh cell after node `j` of a chain cuts the chain there
      and ends it with the fresh cell. */
  lemma LinkAfter(h: Heap, a: seq<int>, j: nat, v: int)
    requires Distinct(a) && Linked(h, a) && j < |a|
    ensures var h' := SetNext(h, a[j], Ref(|h|)) + [Node(v, Null)];
            var b := a[..j + 1] + [|h|];
            && IsChain(h', First(a), b)
            && Values(h', b) == Values(h, a)[..j + 1] + [v]
  {
    var n := |h|;
    var h' := SetNext(h, a[j], Ref(n)) + [Node(v, Null)];
    var b := a[..j + 1] + [n];
    forall i | 0 <= i < |b|
      ensures b[i] < |h'| && h'[b[i]].next == Succ(b, i)
    {
      if i < j {
        LinkedAt(h, a, i);
        assert b[i] == a[i] != a[j];
      }
    }
    LinkedFrom(h', b);
    CutDistinct(h, a, j);
    assert Values(h', b) == Values(h, a)[..j + 1] + [v] by {
      forall i | 0 <= i < j + 1
        ensures h'[b[i]].value == h[a[i]].value
      {
        assert b[i] == a[i];
      }
    }
  }

  /** The first `j + 1` nodes of a chain, then a cell past the arena, are
      still distinct. */
  lemma CutDistinct(h: Heap, a: seq<int>, j: nat)
    requires Distinct(a) && Linked(h, a) && j < |a|
    ensures Distinct(a[..j + 1] + [|h|])
  {
    var b := a[..j + 1] + [|h|];
    forall x, y | 0 <= x < y < |b|
      ensures b[x] != b[y]
    {
      if y == j + 1 {
        assert b[x] == a[x] < |h|;
      } else {
        assert b[x] == a[x] && b[y] == a[y];
      }
    }
  }

  /** Writing a link into a cell outside a chain leaves the chain as it is. */
  lemma LinkOutside(h: Heap, a: seq<int>, t: nat, v: int)
    requires Linked(h, a) && 0 <= t < |h| && t !in a
    ensures var h' := SetNext(h, t, Ref(|h|)) + [Node(v, Null)];
            && Linked(h', a)
            && Values(h', a) == Values(h, a)
  {
    var h' := SetNext(h, t, Ref(|h|)) + [Node(v, Null)];
    forall i | 0 <= i < |a|
      ensures h'[a[i]] == h[a[i]]
    {
      assert a[i] != t;
    }
  }

  /** `shift()`: null on an empty list, which is left as it is; otherwise
      the head's value, with the head node unlinked, `_size` one smaller
      and `tail` reset to null when the list becomes empty. */
  function Shift(l: LinkedList): (res: (LinkedList, Option<int>))
    requires Coherent(l)
    ensures Coherent(res.0)
    ensures res.0.heap == l.heap
    ensures Contents(res.0) != [] ==> res.0.tail == l.tail
    ensures Contents(l) == [] ==> res == (l, None)
    ensures Valid(l) ==> Valid(res.0)
    ensures Contents(l) != [] ==>
              && res.1 == Some(Contents(l)[0])
              && Contents(res.0) == Contents(l)[1..]
              && res.0.size == l.size - 1
              && (Contents(res.0) == [] ==> res.0.tail == Null)
    ensures TailAtEnd(l) ==> TailAtEnd(res.0)
  {
    if l.head == Null then (l, None)
    else
      var a := Nodes(l);
      var val := l.heap[l.head.addr].value;
      var head' := l.heap[l.head.addr].next;
      var tail' := if head' == Null then Null else l.tail;
      var l' := LinkedList(l.heap, head', tail', l.size - 1);
      assert IsChain(l'.heap, l'.head, a[1..]);
      NodesAre(l', a[1..]);
      (l', Some(val))
  }

  /** `isEmpty()`: on a valid list, true exactly when it holds no value. */
  function IsEmpty(l: LinkedList): (b: bool)
    ensures Valid(l) ==> (b <==> Contents(l) == [])
  {
    l.size == 0
  }

  /** `size()`: on a valid list, the number of values it holds. */
  function Size(l: LinkedList): (n: int)
    ensures Valid(l) ==> n == |Contents(l)|
  {
    l.size
  }

  /** `push` and `shift` together make a first-in first-out queue: pushing
      every value of `vs` onto a new list and then shifting until
      `isEmpty()` returns the values in the order they were pushed. */
  method PushAllShiftAll(vs: seq<int>) returns (out: seq<int>)
    ensures out == vs
  {
    var l := PushAll(vs);
    out := ShiftAll(l);
  }

  /** A new list with every value of `vs` pushed in order. */
  method PushAll(vs: seq<int>) returns (l: LinkedList)
    ensures Valid(l) && TailAtEnd(l) && Contents(l) == vs
  {
    l := Empty();
    var i := 0;
    while i < |vs|
      invariant 0 <= i <= |vs|
      invariant Valid(l) && TailAtEnd(l) && Contents(l) == vs[..i]
    {
      assert vs[..i + 1] == vs[..i] + [vs[i]];
      l := PushBack(l, vs[i]);
      i := i + 1;
    }
    assert vs[..i] == vs;
  }

  /** Shifting until `isEmpty()` yields the values head first. */
  method ShiftAll(l0: LinkedList) returns (out: seq<int>)
    requires Valid(l0)
    ensures out == Contents(l0)
  {
    var l := l0;
    out := [];
    while !IsEmpty(l)
      invariant Valid(l) && out + Contents(l) == Contents(l0)
      decreases |Contents(l)|
    {
      var r := Shift(l);
      out := out + [r.1.value];
      assert out + Contents(r.0) == Contents(l0) by {
        assert Contents(l) == [r.1.value] + Contents(r.0);
      }
      l := r.0;
    }
  }

  /** `toArray()`: walk from the head collecting values until null. */
  method ToArray(l: LinkedList) returns (out: seq<int>)
    requires WellFormed(l)
    ensures out == Contents(l)
  {
    ghost var a := Nodes(l);
    out := [];
    var cur := l.head;
    ghost var i := 0;
    while cur != Null
      invariant 0 <= i <= |a|
      invariant cur == (if i < |a| then Ref(a[i]) else Null)
      invariant |out| == i
      invariant forall j {:trigger out[j]} :: 0 <= j < i ==> out[j] == l.heap[a[j]].value
      decreases |a| - i
    {
      out := out + [l.heap[cur.addr].value];
      cur := l.heap[cur.addr].next;
      i := i + 1;
    }
    assert out == Contents(l);
  }

  /** The calls `forEach(fn)` makes, folded left: `fn` is applied to each
      value with its index `i, i + 1, ...`, threading the state its closure
      updates. */
  function FoldVisits<S>(f: (S, int, nat) -> S, s: S, vs: seq<int>, i: nat): S
    decreases |vs|
  {
    if vs == [] then s else FoldVisits(f, f(s, vs[0], i), vs[1..], i + 1)
  }

  /** `forEach(fn)`: walk from the head, calling `fn(value, index)` with
      indices 0, 1, ..., in list order; the list itself is untouched. The
      callback's effect on its own closure is the threaded state `s`. */
  method ForEach<S>(l: LinkedList, f: (S, int, nat) -> S, s0: S) returns (s: S)
    requires WellFormed(l)
    ensures s == FoldVisits(f, s0, Contents(l), 0)
  {
    ghost var a := Nodes(l);
    ghost var c := Contents(l);
    s := s0;
    var cur := l.head;
    var i: nat := 0;
    while cur != Null
      invariant i <= |a|
      invariant cur == (if i < |a| then Ref(a[i]) else Null)
      invariant FoldVisits(f, s, c[i..], i) == FoldVisits(f, s0, c, 0)
      decreases |a| - i
    {
      assert c[i..][0] == c[i] && c[i..][1..] == c[i + 1..];
      s := f(s, l.heap[cur.addr].value, i);
      cur := l.heap[cur.addr].next;
      i := i + 1;
    }
  }

  /** The node order after `k` rounds of the `swap` loop: the first `2k`
      nodes exchanged pairwise, the rest untouched. */
  function Mid(a: seq<int>, k: nat): (m: seq<int>)
    ensures |m| == |a|
  {
    seq(|a|, i requires 0 <= i < |a| => if i < 2 * k then a[Partner(i, |a|)] else a[i])
  }

  lemma MidDistinct(a: seq<int>, k: nat)
    requires Distinct(a)
    ensures Distinct(Mid(a, k))
  {
    var m := Mid(a, k);
    forall i, j | 0 <= i < j < |m|
      ensures m[i] != m[j]
    {
      var pi := if i < 2 * k then Partner(i, |a|) else i;
      var pj := if j < 2 * k then Partner(j, |a|) else j;
      PartnerInRange(i, |a|);
      PartnerInRange(j, |a|);
      assert m[i] == a[pi] && m[j] == a[pj];
      assert pi != pj;
    }
  }

  /** The arena after one round of the `swap` loop body, with `cur` at
      position `2k`, `next` at `2k + 1` and, when `k > 0`, `prev` at
      `2k - 2` of the original order `a`. */
  function Relink(h: Heap, a: seq<int>, k: nat): Heap
    requires 2 * k + 1 < |a|
    requires forall i :: 0 <= i < |a| ==> 0 <= a[i] < |h|
  {
    var nextPair := h[a[2 * k + 1]].next;
    var h1 := SetNext(h, a[2 * k + 1], Ref(a[2 * k]));
    var h2 := SetNext(h1, a[2 * k], nextPair);
    if k == 0 then h2 else SetNext(h2, a[2 * k - 2], Ref(a[2 * k + 1]))
  }

  /** One round exchanges the nodes at positions `2k` and `2k + 1` of the
      loop's node order and leaves every other position as it is. */
  lemma MidStep(a: seq<int>, k: nat)
    requires 2 * k + 1 < |a|
    ensures Mid(a, k + 1) == Mid(a, k)[2 * k := a[2 * k + 1]][2 * k + 1 := a[2 * k]]
    ensures Mid(a, k)[2 * k] == a[2 * k] && Mid(a, k)[2 * k + 1] == a[2 * k + 1]
  {
    var n := |a|;
    PartnerOfPair(k, n);
    assert Mid(a, k + 1)[2 * k] == a[2 * k + 1];
    assert Mid(a, k + 1)[2 * k + 1] == a[2 * k];
  }

  /** Which original position the node at position `i` of the loop's
      order comes from. */
  lemma MidAt(a: seq<int>, k: nat, i: nat)
    requires 2 * k <= |a| && i < |a|
    ensures i < 2 * k ==> Mid(a, k)[i] == a[Partner(i, |a|)] && Partner(i, |a|) < 2 * k
    ensures i < 2 * k && Partner(i, |a|) == 2 * k - 2 ==> i == 2 * k - 1
    ensures i >= 2 * k ==> Mid(a, k)[i] == a[i]
  {
    if i < 2 * k {
      PartnerBelow(i, k, |a|);
    }
  }

  /** A position other than the round's three touched ones holds a node
      that is none of the three relinked cells. */
  lemma OtherPosition(a: seq<int>, k: nat, i: nat)
    requires Distinct(a) && 2 * k + 1 < |a| && i < |a|
    requires i != 2 * k && i != 2 * k + 1 && (k > 0 ==> i != 2 * k - 1)
    ensures Mid(a, k)[i] != a[2 * k] && Mid(a, k)[i] != a[2 * k + 1]
    ensures k > 0 ==> Mid(a, k)[i] != a[2 * k - 2]
  {
    MidAt(a, k, i);
  }

  /** One round of the loop turns the node order `Mid(a, k)` into
      `Mid(a, k + 1)`. */
  lemma SwapRound(h: Heap, a: seq<int>, k: nat)
    requires Distinct(a) && 2 * k + 1 < |a|
    requires forall i :: 0 <= i < |a| ==> 0 <= a[i] < |h|
    requires Linked(h, Mid(a, k))
    ensures Linked(Relink(h, a, k), Mid(a, k + 1))
  {
    var h', m' := Relink(h, a, k), Mid(a, k + 1);
    forall i | 0 <= i < |m'|
      ensures 0 <= m'[i] < |h'| && h'[m'[i]].next == Succ(m', i)
    {
      RoundLinkAt(h, a, k, i);
    }
    LinkedFrom(h', m');
  }

  /** The link of position `i` of the loop's order after one round. */
  lemma RoundLinkAt(h: Heap, a: seq<int>, k: nat, i: nat)
    requires Distinct(a) && 2 * k + 1 < |a| && i < |a|
    requires forall j :: 0 <= j < |a| ==> 0 <= a[j] < |h|
    requires Linked(h, Mid(a, k))
    ensures 0 <= Mid(a, k + 1)[i] < |Relink(h, a, k)|
    ensures Relink(h, a, k)[Mid(a, k + 1)[i]].next == Succ(Mid(a, k + 1), i)
  {
    var m, h' := Mid(a, k), Relink(h, a, k);
    var n := |a|;
    var x, y := a[2 * k], a[2 * k + 1];
    MidStep(a, k);
    var m' := m[2 * k := y][2 * k + 1 := x];
    assert m' == Mid(a, k + 1);
    if i == 2 * k {
    } else if i == 2 * k + 1 {
      LinkedAt(h, m, i);
      assert Succ(m', i) == Succ(m, i);
    } else if k > 0 && i == 2 * k - 1 {
      MidAt(a, k, i);
      PartnerOfPair(k - 1, n);
    } else {
      OtherPosition(a, k, i);
      LinkedAt(h, m, i);
      assert h'[m'[i]] == h[m[i]];
      assert Succ(m', i) == Succ(m, i);
    }
  }

  /** What holds of the arena `h` after `k` rounds of the `swap` loop that
      started from `h0` with node order `a`. */
  ghost predicate RoundState(h0: Heap, h: Heap, a: seq<int>, k: nat)
  {
    && 2 * k <= |a|
    && |h| == |h0|
    && (forall i :: 0 <= i < |a| ==> 0 <= a[i] < |h|)
    && (forall x :: 0 <= x < |h| ==> h[x].value == h0[x].value)
    && Linked(h, Mid(a, k))
  }

  /** Before the first round, the loop's node order is the chain's own,
      and the head's successor is the second node. */
  lemma RoundStart(h0: Heap, a: seq<int>)
    requires Linked(h0, a) && |a| >= 2
    ensures RoundState(h0, h0, a, 0)
    ensures h0[a[0]].next == Ref(a[1])
  {
    assert Mid(a, 0) == a;
    LinkedAt(h0, a, 0);
  }

  /** A round keeps the loop's state, one round further on: relinking
      writes only `next` fields, so the values and the arena size stay. */
  lemma RoundStep(h0: Heap, h: Heap, h': Heap, a: seq<int>, k: nat)
    requires RoundState(h0, h, a, k) && 2 * k + 1 < |a|
    requires h' == Relink(h, a, k) && Linked(h', Mid(a, k + 1))
    ensures RoundState(h0, h', a, k + 1)
  {
  }

  /** When the loop stops, the arena links the pairwise exchange of the
      original order, headed by the original second node. */
  lemma SwapDone(h0: Heap, h: Heap, a: seq<int>, k: nat)
    requires Distinct(a) && RoundState(h0, h, a, k) && 2 <= |a| <= 2 * k + 1
    ensures IsChain(h, Ref(a[1]), SwapPairs(a))
  {
    MidDistinct(a, k);
    MidDone(a, k);
    SwapPairsAt(a, 0);
    PartnerOfPair(0, |a|);
  }

  /** Once fewer than two nodes are left unpaired, the loop's node order is
      the pairwise exchange of the original order. */
  lemma MidDone(a: seq<int>, k: nat)
    requires |a| <= 2 * k + 1
    ensures Mid(a, k) == SwapPairs(a)
  {
    forall i | 0 <= i < |a|
      ensures Mid(a, k)[i] == SwapPairs(a)[i]
    {
      MidDoneAt(a, k, i);
    }
  }

  lemma MidDoneAt(a: seq<int>, k: nat, i: nat)
    requires |a| <= 2 * k + 1 && i < |a|
    ensures Mid(a, k)[i] == SwapPairs(a)[i]
  {
    SwapPairsAt(a, i);
    if i >= 2 * k {
      PartnerPastPairs(i, k, |a|);
    }
  }

  /** The links the loop reads at the start of a round: `cur.next` is the
      node at `2k + 1` (null when there is none), and that node's `next`
      is the node at `2k + 2` (or null). */
  lemma RoundLinks(h: Heap, a: seq<int>, k: nat)
    requires 2 * k < |a| && Linked(h, Mid(a, k))
    ensures 0 <= a[2 * k] < |h|
    ensures h[a[2 * k]].next == (if 2 * k + 1 < |a| then Ref(a[2 * k + 1]) else Null)
    ensures 2 * k + 1 < |a| ==>
              0 <= a[2 * k + 1] < |h| && h[a[2 * k + 1]].next == (if 2 * k + 2 < |a| then Ref(a[2 * k + 2]) else Null)
  {
    MidAt(a, k, 2 * k);
    if 2 * k + 1 < |a| {
      MidAt(a, k, 2 * k + 1);
      if 2 * k + 2 < |a| {
        MidAt(a, k, 2 * k + 2);
      }
    }
  }

  /** What the relinked arena means: the list it heads holds the exchanged
      node order, and so the exchanged values; the counters and `tail` are
      what they were, so validity carries over, and `tail` stays on the
      node it named. */
  lemma SwapMeaning(l: LinkedList, l': LinkedList)
    requires WellFormed(l)
    requires |l'.heap| == |l.heap| && l'.tail == l.tail && l'.size == l.size
    requires forall x :: 0 <= x < |l.heap| ==> l'.heap[x].value == l.heap[x].value
    requires IsChain(l'.heap, l'.head, SwapPairs(Nodes(l)))
    ensures WellFormed(l') && Nodes(l') == SwapPairs(Nodes(l))
    ensures Contents(l') == SwapPairs(Contents(l))
    ensures Valid(l) ==> Valid(l')
    ensures TailAtEnd(l) && |Contents(l)| % 2 == 1 ==> TailAtEnd(l')
    ensures TailAtEnd(l) && |Contents(l)| % 2 == 0 && |Contents(l)| >= 2 ==>
              l'.tail == Ref(Nodes(l')[|Nodes(l')| - 2])
  {
    var a := Nodes(l);
    NodesAre(l', SwapPairs(a));
    SwapValues(l.heap, l'.heap, a);
    if TailAtEnd(l) {
      SwapTail(l, l');
    }
  }

  /** The values along the exchanged order, in an arena with the same
      values, are the exchanged values. */
  lemma SwapValues(h: Heap, h': Heap, a: seq<int>)
    requires |h'| == |h| && forall x :: 0 <= x < |h| ==> h'[x].value == h[x].value
    requires forall i :: 0 <= i < |a| ==> 0 <= a[i] < |h|
    ensures && (forall i :: 0 <= i < |a| ==> 0 <= SwapPairs(a)[i] < |h'|)
            && Values(h', SwapPairs(a)) == SwapPairs(Values(h, a))
  {
    var vs := Values(h, a);
    forall i | 0 <= i < |a|
      ensures 0 <= SwapPairs(a)[i] < |h'| && h'[SwapPairs(a)[i]].value == SwapPairs(vs)[i]
    {
      SwapValueAt(h, h', a, i);
    }
  }

  lemma SwapValueAt(h: Heap, h': Heap, a: seq<int>, i: nat)
    requires |h'| == |h| && forall x :: 0 <= x < |h| ==> h'[x].value == h[x].value
    requires forall i :: 0 <= i < |a| ==> 0 <= a[i] < |h|
    requires i < |a|
    ensures 0 <= SwapPairs(a)[i] < |h'| && h'[SwapPairs(a)[i]].value == SwapPairs(Values(h, a))[i]
  {
    var p := Partner(i, |a|);
    PartnerInRange(i, |a|);
    SwapPairsAt(a, i);
    SwapPairsAt(Values(h, a), i);
    assert SwapPairs(a)[i] == a[p];
    assert SwapPairs(Values(h, a))[i] == h[a[p]].value;
  }

  /** Where `tail` ends up after `swap`: still the last node of an
      odd-length list, the second-to-last node of an even-length one. */
  lemma SwapTail(l: LinkedList, l': LinkedList)
    requires WellFormed(l) && WellFormed(l') && TailAtEnd(l)
    requires l'.tail == l.tail && Nodes(l') == SwapPairs(Nodes(l))
    ensures |Nodes(l)| % 2 == 1 ==> TailAtEnd(l')
    ensures |Nodes(l)| % 2 == 0 && |Nodes(l)| >= 2 ==>
              l'.tail == Ref(Nodes(l')[|Nodes(l')| - 2])
  {
    var a := Nodes(l);
    ShapeOfSwapPairs(a);
    if |a| % 2 == 0 && |a| >= 2 {
      var k := |a| / 2 - 1;
      assert 2 * k + 1 == |a| - 1;
    }
  }

  /** The relinking loop of `swap()` on a chain of at least two nodes: the
      second node becomes the head, and each round links `next` to `cur`,
      `cur` to the node after the pair, and the previous pair's first node
      to `next`. Only `next` links change. */
  method SwapLinks(h0: Heap, head0: Ptr, ghost a: seq<int>) returns (h: Heap, head: Ptr, last: Ptr)
    requires IsChain(h0, head0, a) && |a| >= 2
    ensures IsChain(h, head, SwapPairs(a))
    ensures last == Ref(SwapPairs(a)[|a| - 1])
    ensures |h| == |h0|
    ensures forall x :: 0 <= x < |h| ==> h[x].value == h0[x].value
  {
    h := h0;
    var prev := Null;
    var cur := head0;
    head := h[cur.addr].next;
    ghost var k: nat := 0;
    RoundStart(h0, a);
    while cur != Null && h[cur.addr].next != Null
      invariant RoundState(h0, h, a, k)
      invariant cur == (if 2 * k < |a| then Ref(a[2 * k]) else Null)
      invariant prev == (if k == 0 then Null else Ref(a[2 * k - 2]))
      invariant head == Ref(a[1])
      decreases |a| - 2 * k
    {
      var nextPair;
      h, nextPair := RelinkRound(h, cur, prev, h0, a, k);
      prev := cur;
      cur := nextPair;
      k := k + 1;
    }
    last := if cur != Null then cur else prev;
    SwapLinksEnd(h0, h, a, k, cur, prev, head, last);
  }

  /** Where the loop of `swap` stops: every pair has been exchanged, so the
      arena links the exchanged order from the original second node, and
      `cur ?? prev` is its last node. */
  lemma SwapLinksEnd(h0: Heap, h: Heap, a: seq<int>, k: nat, cur: Ptr, prev: Ptr, head: Ptr, last: Ptr)
    requires Distinct(a) && RoundState(h0, h, a, k) && |a| >= 2
    requires cur == (if 2 * k < |a| then Ref(a[2 * k]) else Null)
    requires prev == (if k == 0 then Null else Ref(a[2 * k - 2]))
    requires cur != Null ==> 0 <= cur.addr < |h| && h[cur.addr].next == Null
    requires head == Ref(a[1]) && last == (if cur != Null then cur else prev)
    ensures IsChain(h, head, SwapPairs(a))
    ensures last == Ref(SwapPairs(a)[|a| - 1])
    ensures |h| == |h0|
    ensures forall x :: 0 <= x < |h| ==> h[x].value == h0[x].value
  {
    if 2 * k < |a| {
      RoundLinks(h, a, k);
    }
    SwapDone(h0, h, a, k);
    LoopEnd(a, k, cur, prev);
  }

  /** The body of one round of the `swap` loop: `next.next = cur`,
      `cur.next = nextPair`, and `prev.next = next` when there is a `prev`.
      On an arena linking the node order of `k` finished rounds, it
      exchanges pair `k`: the arena then links the order of `k + 1` rounds,
      no value changes, and no node other than `prev`, `cur` and `next` is
      written. It returns `nextPair`, the node after the pair. */
  method RelinkRound(h: Heap, cur: Ptr, prev: Ptr, ghost h0: Heap, ghost a: seq<int>, ghost k: nat)
    returns (h': Heap, nextPair: Ptr)
    requires Distinct(a) && RoundState(h0, h, a, k)
    requires cur == (if 2 * k < |a| then Ref(a[2 * k]) else Null)
    requires prev == (if k == 0 then Null else Ref(a[2 * k - 2]))
    requires cur != Null && 0 <= cur.addr < |h| && h[cur.addr].next != Null
    ensures 2 * k + 1 < |a|
    ensures Linked(h', Mid(a, k + 1))
    ensures RoundState(h0, h', a, k + 1)
    ensures |h'| == |h|
    ensures forall x :: 0 <= x < |h| && x != a[2 * k] && x != a[2 * k + 1] && (k == 0 || x != a[2 * k - 2]) ==>
              h'[x] == h[x]
    ensures nextPair == (if 2 * k + 2 < |a| then Ref(a[2 * k + 2]) else Null)
  {
    RoundLinks(h, a, k);
    SwapRound(h, a, k);
    var next := h[cur.addr].next;
    nextPair := h[next.addr].next;
    h' := SetNext(h, next.addr, cur);
    h' := SetNext(h', cur.addr, nextPair);
    if prev != Null {
      h' := SetNext(h', prev.addr, next);
    }
    RoundStep(h0, h, h', a, k);
  }

  /** When the loop stops, `cur` is the unpaired last node, or null with
      `prev` the first node of the last pair: either way, `cur ?? prev` is
      the last node of the exchanged order. */
  lemma LoopEnd(a: seq<int>, k: nat, cur: Ptr, prev: Ptr)
    requires 2 <= |a| <= 2 * k + 1 && 2 * k <= |a|
    requires cur == (if 2 * k < |a| then Ref(a[2 * k]) else Null)
    requires prev == (if k == 0 then Null else Ref(a[2 * k - 2]))
    ensures (if cur != Null then cur else prev) == Ref(SwapPairs(a)[|a| - 1])
  {
    SwapPairsLast(a);
  }

  /** `swap()`: exchange adjacent nodes pairwise by relinking them, never
      touching `tail` or `_size`; a list of fewer than two nodes is left as
      it is. The new node order is the pairwise exchange of the old one, so
      the values are exchanged the same way. On an even-length list whose
      `tail` was its last node, `tail` now names the second-to-last node;
      on an odd-length one it is still the last. */
  method Swap(l: LinkedList) returns (l': LinkedList)
    requires WellFormed(l)
    ensures WellFormed(l')
    ensures Nodes(l') == SwapPairs(Nodes(l))
    ensures Contents(l') == SwapPairs(Contents(l))
    ensures l'.tail == l.tail && l'.size == l.size && |l'.heap| == |l.heap|
    ensures |Contents(l)| < 2 ==> l' == l
    ensures Valid(l) ==> Valid(l')
    ensures TailAtEnd(l) && |Contents(l)| % 2 == 1 ==> TailAtEnd(l')
    ensures TailAtEnd(l) && |Contents(l)| % 2 == 0 && |Contents(l)| >= 2 ==>
              l'.tail == Ref(Nodes(l')[|Nodes(l')| - 2])
  {
    ghost var a := Nodes(l);
    if l.head == Null || l.heap[l.head.addr].next == Null {
      SwapShort(l);
      l' := l;
    } else {
      SwapLong(l);
      var h, head, _ := SwapLinks(l.heap, l.head, a);
      l' := LinkedList(h, head, l.tail, l.size);
    }
    SwapMeaning(l, l');
  }

  /** A list whose head is null or has no successor holds fewer than two
      nodes, which the exchange leaves in place. */
  lemma SwapShort(l: LinkedList)
    requires WellFormed(l)
    requires l.head == Null || l.heap[l.head.addr].next == Null
    ensures IsChain(l.heap, l.head, SwapPairs(Nodes(l)))
  {
    var a := Nodes(l);
    if a != [] {
      LinkedAt(l.heap, a, 0);
    }
    ShapeOfSwapPairs(a);
  }

  /** A list whose head has a successor holds at least two nodes. */
  lemma SwapLong(l: LinkedList)
    requires WellFormed(l)
    requires l.head != Null && l.heap[l.head.addr].next != Null
    ensures |Nodes(l)| >= 2
  {
    LinkedAt(l.heap, Nodes(l), 0);
  }

  /** Swapping twice restores the values of a list of any length, even or
      odd, and keeps a valid list valid. */
  method SwapTwice(l: LinkedList) returns (l'': LinkedList)
    requires WellFormed(l)
    ensures WellFormed(l'') && Contents(l'') == Contents(l)
    ensures Valid(l) ==> Valid(l'')
    ensures l''.size == l.size && l''.tail == l.tail
  {
    var l' := Swap(l);
    l'' := Swap(l');
    SwapPairsInvolution(Contents(l));
  }

  /** The stale `tail` at work: push 1 and 2, swap, then push 9. `tail`
      still names the node holding 2, which the swap made the head, so the
      new node is linked after it and the node holding 1 drops out, while
      `_size` counts three nodes. */
  method PushAfterSwap() returns (l: LinkedList)
    ensures Coherent(l) && TailAtEnd(l)
    ensures Contents(l) == [2, 9] && Size(l) == 3
    ensures !Valid(l)
  {
    var l1 := PushBack(Empty(), 1);
    var l2 := PushBack(l1, 2);
    assert Contents(l2) == [1, 2];
    var l3 := Swap(l2);
    assert Contents(l3) == [2, 1] && l3.tail == Ref(Nodes(l3)[0]);
    l := Push(l3, 9);
  }

  /** The list keeps working on that state, with `_size` one too high:
      `push(10)` appends and `shift()` then returns 2, leaving `[9, 10]`
      while `size()` says 3. Two more shifts empty the list, yet `size()`
      says 1 and `isEmpty()` is false. */
  method PushShiftAfterSwap() returns (l: LinkedList, x: Option<int>, drained: LinkedList)
    ensures Coherent(l) && TailAtEnd(l)
    ensures x == Some(2)
    ensures Contents(l) == [9, 10] && Size(l) == 3
    ensures !Valid(l)
    ensures Coherent(drained) && Contents(drained) == []
    ensures Size(drained) == 1 && !IsEmpty(drained)
  {
    var l4 := PushAfterSwap();
    var l5 := Push(l4, 10);
    assert Contents(l5) == [2, 9, 10];
    var r := Shift(l5);
    assert Contents(r.0) == [9, 10];
    l, x := r.0, r.1;
    var r1 := Shift(l);
    assert Contents(r1.0) == [10];
    var r2 := Shift(r1.0);
    drained := r2.0;
  }

  /** `swap()` corrected to leave `tail` on the last node: after the loop,
      `this.tail = cur ?? prev`. The values are exchanged as before, and a
      list whose `tail` was its last node keeps that invariant, so later
      pushes append. */
  method SwapSettingTail(l: LinkedList) returns (l': LinkedList)
    requires WellFormed(l)
    ensures WellFormed(l') && Contents(l') == SwapPairs(Contents(l))
    ensures l'.size == l.size
    ensures Valid(l) ==> Valid(l')
    ensures TailAtEnd(l) ==> TailAtEnd(l')
    ensures |Contents(l)| >= 2 ==> TailAtEnd(l')
  {
    ghost var a := Nodes(l);
    if l.head == Null || l.heap[l.head.addr].next == Null {
      SwapShort(l);
      l' := l;
      SwapMeaning(l, l');
    } else {
      SwapLong(l);
      var h, head, last := SwapLinks(l.heap, l.head, a);
      ghost var l'' := LinkedList(h, head, l.tail, l.size);
      SwapMeaning(l, l'');
      l' := LinkedList(h, head, last, l.size);
      NodesAre(l', SwapPairs(a));
    }
  }

  /** With the corrected swap, a push after a swap appends: the values are
      the exchanged ones followed by `v`. */
  method SwapThenPush(l: LinkedList, v: int) returns (l': LinkedList)
    requires Valid(l) && TailAtEnd(l)
    ensures Valid(l') && TailAtEnd(l')
    ensures Contents(l') == SwapPairs(Contents(l)) + [v]
  {
    var s := SwapSettingTail(l);
    l' := PushBack(s, v);
  }
}

=== FILE: options.dfy ===
/** JavaScript's `null` result, as an explicit optional value. */
module Options {

  datatype Option<+T> = None | Some(value: T)
}

=== FILE: pairs.dfy ===
/** The pairwise-adjacent exchange that the linked list's `swap` performs,
    stated over plain sequences: `[v0, v1, v2, v3, ...]` becomes
    `[v1, v0, v3, v2, ...]`, and a trailing unpaired element stays put. */
module PairSwap {

  /** Exchange positions (0,1), (2,3), ...; an odd last element is kept. */
  function SwapPairs<T>(s: seq<T>): (r: seq<T>)
    ensures |r| == |s|
  {
    if |s| < 2 then s else [s[1], s[0]] + SwapPairs(s[2..])
  }

  /** The position whose element lands at `i` after `SwapPairs` on a
      sequence of length `n`: its pair partner, or `i` itself when `i` is
      the unpaired last position. */
  function Partner(i: nat, n: nat): nat
  {
    if i % 2 == 0 then (if i + 1 < n then i + 1 else i) else i - 1
  }

  lemma PartnerInRange(i: nat, n: nat)
    requires i < n
    ensures Partner(i, n) < n
    ensures Partner(Partner(i, n), n) == i
  {
  }

  /** Positions `2k` and `2k + 1` are each other's partners. */
  lemma PartnerOfPair(k: nat, n: nat)
    requires 2 * k + 1 < n
    ensures Partner(2 * k, n) == 2 * k + 1 && Partner(2 * k + 1, n) == 2 * k
  {
  }

  /** The last position of an odd length is its own partner. */
  lemma PartnerOfLast(n: nat)
    requires n % 2 == 1
    ensures Partner(n - 1, n) == n - 1
  {
  }

  /** Past the last complete pair, a position is its own partner. */
  lemma PartnerPastPairs(i: nat, k: nat, n: nat)
    requires 2 * k <= i < n <= 2 * k + 1
    ensures Partner(i, n) == i
  {
  }

  /** Below an even bound `2k`, partners stay below it, and only `2k - 1`
      has `2k - 2` as its partner. */
  lemma PartnerBelow(i: nat, k: nat, n: nat)
    requires i < 2 * k <= n
    ensures Partner(i, n) < 2 * k
    ensures Partner(i, n) == 2 * k - 2 ==> i == 2 * k - 1
  {
  }

  /** Element-wise characterisation: position `i` of the result holds the
      element at the partner position of the input. */
  lemma {:induction false} SwapPairsAt<T>(s: seq<T>, i: nat)
    requires i < |s|
    ensures SwapPairs(s)[i] == s[Partner(i, |s|)]
    decreases |s|
  {
    if |s| >= 2 && i >= 2 {
      SwapPairsAt(s[2..], i - 2);
      assert SwapPairs(s)[i] == SwapPairs(s[2..])[i - 2];
    }
  }

  /** The same characterisation for all positions at once. */
  lemma SwapPairsAll<T>(s: seq<T>)
    ensures forall i :: 0 <= i < |s| ==> SwapPairs(s)[i] == s[Partner(i, |s|)]
  {
    forall i | 0 <= i < |s|
      ensures SwapPairs(s)[i] == s[Partner(i, |s|)]
    {
      SwapPairsAt(s, i);
    }
  }

  /** Applying the exchange twice restores the input, for every length. */
  lemma {:induction false} SwapPairsInvolution<T>(s: seq<T>)
    ensures SwapPairs(SwapPairs(s)) == s
    decreases |s|
  {
    if |s| >= 2 {
      var t := SwapPairs(s[2..]);
      assert SwapPairs(s) == [s[1], s[0]] + t;
      assert ([s[1], s[0]] + t)[2..] == t;
      SwapPairsInvolution(s[2..]);
      assert s == [s[0], s[1]] + s[2..];
    }
  }

  /** Lists of fewer than two elements are left as they are; in an
      odd-length input the last element keeps its position; every element
      before it changes places with its neighbour. */
  lemma ShapeOfSwapPairs<T>(s: seq<T>)
    ensures |s| < 2 ==> SwapPairs(s) == s
    ensures |s| % 2 == 1 ==> SwapPairs(s)[|s| - 1] == s[|s| - 1]
    ensures forall k :: 0 <= k && 2 * k + 1 < |s| ==>
              SwapPairs(s)[2 * k] == s[2 * k + 1] && SwapPairs(s)[2 * k + 1] == s[2 * k]
  {
    if |s| % 2 == 1 {
      SwapPairsAt(s, |s| - 1);
      PartnerOfLast(|s|);
    }
    forall k | 0 <= k && 2 * k + 1 < |s|
      ensures SwapPairs(s)[2 * k] == s[2 * k + 1] && SwapPairs(s)[2 * k + 1] == s[2 * k]
    {
      SwapPairsAt(s, 2 * k);
      SwapPairsAt(s, 2 * k + 1);
      PartnerOfPair(k, |s|);
    }
  }

  /** The last element after the exchange: the unpaired last element of
      an odd length, the first of the last pair of an even one. */
  lemma SwapPairsLast<T>(s: seq<T>)
    requires |s| >= 1
    ensures SwapPairs(s)[|s| - 1] == (if |s| % 2 == 1 then s[|s| - 1] else s[|s| - 2])
  {
    SwapPairsAt(s, |s| - 1);
    if |s| % 2 == 1 {
      PartnerOfLast(|s|);
    } else {
      var k := |s| / 2 - 1;
      assert 2 * k + 1 == |s| - 1;
      PartnerOfPair(k, |s|);
    }
  }

  /** The exchange is a permutation: no element is lost or duplicated. */
  lemma {:induction false} SwapPairsMultiset<T>(s: seq<T>)
    ensures multiset(SwapPairs(s)) == multiset(s)
    decreases |s|
  {
    if |s| >= 2 {
      SwapPairsMultiset(s[2..]);
      assert s == [s[0], s[1]] + s[2..];
    }
  }
}

=== FILE: quote_script.dfy ===
/** The function `procesar` of `Examen2.js`: the text is split on single
    spaces, each piece gets a list of offset codes (no swap), and each list
    is logged twice, as numbers and rendered with `String.fromCharCode`.
    The console output is the returned sequence of log lines. */
module QuoteScript {
  import opened Text
  import opened Cipher
  import opened LinkedLists
  import opened WordLists

  /** One `console.log` call of the second loop: `Palabra n:` with the
      list's values, or `Palabra n desencriptada:` with a text. */
  datatype LogLine =
    | Valores(palabra: nat, vals: seq<int>)
    | Texto(palabra: nat, texto: JsString)

  /** The lines the second loop prints for lists `lists` when the text
      line of list `i` shows `shown[i]`; words are numbered from 1. */
  function LogLines(lists: seq<seq<int>>, shown: seq<JsString>): (log: seq<LogLine>)
    requires |shown| == |lists|
    ensures |log| == 2 * |lists|
    ensures forall i :: 0 <= i < |lists| ==>
              log[2 * i] == Valores(i + 1, lists[i]) && log[2 * i + 1] == Texto(i + 1, shown[i])
    decreases |lists|
  {
    if lists == [] then []
    else
      var n := |lists| - 1;
      LogLines(lists[..n], shown[..n]) + [Valores(n + 1, lists[n]), Texto(n + 1, shown[n])]
  }

  /** The first loop (lines 72-81): one fresh list of offset codes per
      piece, in order, with no swap. */
  method BuildLists(palabras: seq<JsString>) returns (arrayDeque: seq<LinkedList>)
    ensures Holds(arrayDeque, OffsetLists(palabras))
  {
    arrayDeque := [];
    ghost var target := OffsetLists(palabras);
    var i := 0;
    while i < |palabras|
      invariant 0 <= i <= |palabras|
      invariant Holds(arrayDeque, target[..i])
    {
      var lista := BuildWordList(palabras[i]);
      HoldsSnoc(arrayDeque, target[..i], lista);
      assert target[..i] + [Contents(lista)] == target[..i + 1];
      arrayDeque := arrayDeque + [lista];
      i := i + 1;
    }
    assert target[..i] == target;
  }

  /** `procesar(si)` as written: split on `' '`, build the lists, then log
      each list's values and, under the label "desencriptada", the same
      values rendered, which is the shifted text and not the word. */
  method Procesar(si: JsString) returns (arrayDeque: seq<LinkedList>, log: seq<LogLine>)
    ensures var lists := OffsetLists(SplitOn(si, Space));
            && Holds(arrayDeque, lists)
            && log == LogLines(lists, RenderEach(lists))
  {
    var palabras := SplitOn(si, Space);
    arrayDeque := BuildLists(palabras);
    log := [];
    ghost var lists := OffsetLists(palabras);
    var pos := 0;
    while pos < |arrayDeque|
      invariant 0 <= pos <= |arrayDeque|
      invariant log == LogLines(lists[..pos], RenderEach(lists)[..pos])
    {
      var lines := ShiftedLines(arrayDeque[pos], pos + 1);
      LogLinesSnoc(lists, RenderEach(lists), pos);
      log := log + lines;
      pos := pos + 1;
    }
    assert lists[..pos] == lists && RenderEach(lists)[..pos] == RenderEach(lists);
  }

  /** The body of the second loop for list number `n`: its values, then the
      same values rendered. */
  method ShiftedLines(lista: LinkedList, n: nat) returns (lines: seq<LogLine>)
    requires WellFormed(lista)
    ensures lines == [Valores(n, Contents(lista)), Texto(n, Render(Contents(lista)))]
  {
    var vals := ToArray(lista);
    var arr := ToArray(lista);
    var palabra := Render(arr);
    lines := [Valores(n, vals), Texto(n, palabra)];
  }

  /** Every list rendered with `String.fromCharCode`. */
  function RenderEach(lists: seq<seq<int>>): (r: seq<JsString>)
    ensures |r| == |lists|
    ensures forall i :: 0 <= i < |lists| ==> r[i] == Render(lists[i])
  {
    seq(|lists|, i requires 0 <= i < |lists| => Render(lists[i]))
  }

  /** Logging one more list appends its two lines. */
  lemma LogLinesSnoc(lists: seq<seq<int>>, shown: seq<JsString>, n: nat)
    requires |shown| == |lists| && n < |lists|
    ensures LogLines(lists[..n + 1], shown[..n + 1])
         == LogLines(lists[..n], shown[..n]) + [Valores(n + 1, lists[n]), Texto(n + 1, shown[n])]
  {
    assert lists[..n + 1][..n] == lists[..n] && shown[..n + 1][..n] == shown[..n];
  }

  /** `split(' ')` keeps empty pieces: two spaces in a row give an empty
      piece, and so an empty list, where `split(/\s+/).filter(Boolean)`
      gives none. */
  lemma DoubleSpaceEmptyList(a: JsString, b: JsString)
    ensures var ws := SplitOn(a + [Space, Space] + b, Space);
            var n := |SplitOn(a, Space)|;
            && n < |ws| && ws[n] == [] && OffsetLists(ws)[n] == []
    ensures forall i :: 0 <= i < |SplitWords(a + [Space, Space] + b)| ==>
              SplitWords(a + [Space, Space] + b)[i] != []
  {
    AdjacentSeparators(a, b, Space);
  }

  /** The text line of a non-empty piece never shows the piece: its first
      unit is shown one higher. For "a" the line reads "b". */
  lemma ShownIsShifted(w: JsString)
    requires w != [] && NoSurrogatePair(w)
    ensures Render(AddOffsets(CharCodes(w), 1))[0] == FromCharCode(w[0] as int + 1)
    ensures Render(AddOffsets(CharCodes(w), 1)) != w
  {
    var r := Render(AddOffsets(CharCodes(w), 1));
    assert r[0] == FromCharCode(w[0] as int + 1);
    assert r[0] != w[0];
  }

  /** `procesar("a")` prints `Palabra 1: [98]` and `Palabra 1 desencriptada: b`. */
  method ProcesarA() returns (log: seq<LogLine>)
    ensures log == [Valores(1, [98]), Texto(1, [98])]
  {
    assert IndexOf([97], Space) == 1 by {
      assert [97][1..] == [];
    }
    assert SplitOn([97], Space) == [[97]];
    var w: JsString := [97];
    assert CharCodes(w) == w && AddOffsets(w, 1) == [98];
    assert OffsetLists([w]) == [[98]];
    assert Render([98]) == [98];
    assert RenderEach([[98]]) == [[98]];
    var deque;
    deque, log := Procesar(w);
  }

  /** `procesar` with the text line showing what its label promises: each
      list's values with the offsets subtracted, which is the piece's
      code points. */
  method ProcesarSubtracting(si: JsString) returns (arrayDeque: seq<LinkedList>, log: seq<LogLine>)
    ensures var ws := SplitOn(si, Space);
            && Holds(arrayDeque, OffsetLists(ws))
            && log == LogLines(OffsetLists(ws), CodesEach(ws))
  {
    var palabras := SplitOn(si, Space);
    arrayDeque := BuildLists(palabras);
    log := [];
    ghost var lists := OffsetLists(palabras);
    ghost var shown := CodesEach(palabras);
    var pos := 0;
    while pos < |arrayDeque|
      invariant 0 <= pos <= |arrayDeque|
      invariant log == LogLines(lists[..pos], shown[..pos])
    {
      var lines := SubtractedLines(arrayDeque[pos], palabras, pos);
      LogLinesSnoc(lists, shown, pos);
      log := log + lines;
      pos := pos + 1;
    }
    assert lists[..pos] == lists && shown[..pos] == shown;
  }

  /** The corrected body of the second loop for the list built from piece
      `ws[i]`: its values, then its values with the offsets subtracted,
      rendered, which is the piece's code points. */
  method SubtractedLines(lista: LinkedList, ghost ws: seq<JsString>, i: nat) returns (lines: seq<LogLine>)
    requires i < |ws| && Valid(lista) && Contents(lista) == OffsetLists(ws)[i]
    ensures lines == [Valores(i + 1, OffsetLists(ws)[i]), Texto(i + 1, CodesEach(ws)[i])]
  {
    var vals := ToArray(lista);
    var nums := SubtractOffsets(lista);
    var palabra := Render(nums);
    UndoOffsets(ws[i]);
    lines := [Valores(i + 1, vals), Texto(i + 1, palabra)];
  }

  /** Subtracting the offsets from a piece's list gives its code points. */
  lemma UndoOffsets(w: JsString)
    ensures Render(SubOffsets(AddOffsets(CharCodes(w), 1), 1)) == CharCodes(w)
  {
    OffsetsInverse(CharCodes(w), 1);
    RenderUnits(CharCodes(w));
  }

  /** The code points of each piece, the piece itself when it holds no
      surrogate pair. */
  function CodesEach(ws: seq<JsString>): (r: seq<JsString>)
    ensures |r| == |ws|
    ensures forall i :: 0 <= i < |ws| ==> r[i] == CharCodes(ws[i])
    ensures forall i :: 0 <= i < |ws| && NoSurrogatePair(ws[i]) ==> r[i] == ws[i]
  {
    seq(|ws|, i requires 0 <= i < |ws| => CharCodes(ws[i]))
  }

  /** With the correction, `procesar("a")` prints "a" on the text line. */
  method ProcesarSubtractingA() returns (log: seq<LogLine>)
    ensures log == [Valores(1, [98]), Texto(1, [97])]
  {
    assert IndexOf([97], Space) == 1 by {
      assert [97][1..] == [];
    }
    assert SplitOn([97], Space) == [[97]];
    var w: JsString := [97];
    assert CharCodes(w) == w && AddOffsets(w, 1) == [98];
    assert OffsetLists([w]) == [[98]];
    assert CodesEach([w]) == [w];
    var deque;
    deque, log := ProcesarSubtracting(w);
  }
}

=== FILE: text.dfy ===
/** JavaScript strings as sequences of UTF-16 code units, and the string
    operations the cipher relies on: whitespace splitting, single-character
    splitting, joining, code-point iteration and `String.fromCharCode`. */
module Text {

  /** A UTF-16 code unit, the element of a JavaScript string. */
  type Unit = u: int | 0 <= u < 0x1_0000

  type JsString = seq<Unit>

  /** The separator `join(' ')` and `split(' ')` use. */
  const Space: Unit := 0x20

  /** The characters the regular-expression class `\s` matches: the
      ECMAScript white-space and line-terminator code points. */
  predicate IsSpace(u: int)
  {
    || (0x09 <= u <= 0x0D)
    || u == 0x20
    || u == 0xA0
    || u == 0x1680
    || (0x2000 <= u <= 0x200A)
    || u == 0x2028
    || u == 0x2029
    || u == 0x202F
    || u == 0x205F
    || u == 0x3000
    || u == 0xFEFF
  }

  /** A token that `split(/\s+/).filter(Boolean)` can produce. */
  predicate IsWord(w: JsString)
  {
    w != [] && forall i :: 0 <= i < |w| ==> !IsSpace(w[i])
  }

  predicate NoSpace(w: JsString)
  {
    forall i :: 0 <= i < |w| ==> !IsSpace(w[i])
  }

  /** Length of the leading run of non-whitespace units. */
  function WordLen(s: JsString): (k: nat)
    ensures k <= |s|
    ensures NoSpace(s[..k])
    ensures k < |s| ==> IsSpace(s[k])
  {
    if s == [] || IsSpace(s[0]) then 0
    else
      var k := WordLen(s[1..]);
      assert s[..k + 1] == [s[0]] + s[1..][..k];
      k + 1
  }

  /** `s.split(/\s+/).filter(Boolean)`: the maximal runs of non-whitespace,
      in order. */
  function SplitWords(s: JsString): (ws: seq<JsString>)
    ensures forall i :: 0 <= i < |ws| ==> IsWord(ws[i])
    decreases |s|
  {
    if s == [] then []
    else if IsSpace(s[0]) then SplitWords(s[1..])
    else
      var k := WordLen(s);
      [s[..k]] + SplitWords(s[k..])
  }

  /** `ws.join(sep)`: the pieces in order with one separator between each
      two, so the result is as long as the pieces together plus the
      separators. */
  function Join(ws: seq<JsString>, sep: Unit): (r: JsString)
    ensures |r| == |Flatten(ws)| + (if ws == [] then 0 else |ws| - 1)
  {
    if ws == [] then []
    else if |ws| == 1 then ws[0]
    else ws[0] + [sep] + Join(ws[1..], sep)
  }

  /** Joining one more piece appends the separator and then the piece. */
  lemma {:induction false} JoinSnoc(ws: seq<JsString>, w: JsString, sep: Unit)
    requires ws != []
    ensures Join(ws + [w], sep) == Join(ws, sep) + [sep] + w
    decreases |ws|
  {
    if |ws| == 1 {
      assert ws + [w] == [ws[0], w];
      assert [w][1..] == [];
    } else {
      assert (ws + [w])[1..] == ws[1..] + [w];
      JoinSnoc(ws[1..], w, sep);
    }
  }

  function Flatten(ws: seq<JsString>): JsString
  {
    if ws == [] then [] else ws[0] + Flatten(ws[1..])
  }

  /** The non-whitespace units of `s`, in order. */
  function NonSpace(s: JsString): JsString
  {
    if s == [] then []
    else if IsSpace(s[0]) then NonSpace(s[1..])
    else [s[0]] + NonSpace(s[1..])
  }

  lemma {:induction false} NonSpacePrefix(s: JsString, k: nat)
    requires k <= |s| && NoSpace(s[..k])
    ensures NonSpace(s) == s[..k] + NonSpace(s[k..])
    decreases k
  {
    if k > 0 {
      assert s[1..][..k - 1] == s[1..k];
      NonSpacePrefix(s[1..], k - 1);
      assert s[1..][k - 1..] == s[k..];
      assert s[..k] == [s[0]] + s[1..k];
    }
  }

  /** Splitting drops exactly the whitespace: the words, concatenated, are
      the non-whitespace units of the input in their original order. */
  lemma {:induction false} SplitWordsKeepsText(s: JsString)
    ensures Flatten(SplitWords(s)) == NonSpace(s)
    decreases |s|
  {
    if s != [] && !IsSpace(s[0]) {
      var k := WordLen(s);
      var rest := SplitWords(s[k..]);
      assert SplitWords(s) == [s[..k]] + rest;
      assert ([s[..k]] + rest)[1..] == rest;
      SplitWordsKeepsText(s[k..]);
      NonSpacePrefix(s, k);
    } else if s != [] {
      SplitWordsKeepsText(s[1..]);
    }
  }

  lemma {:induction false} WordLenAppend(w: JsString, t: JsString)
    requires NoSpace(w)
    ensures WordLen(w + t) == |w| + WordLen(t)
    decreases |w|
  {
    if w == [] {
      assert w + t == t;
    } else {
      assert (w + t)[0] == w[0];
      assert (w + t)[1..] == w[1..] + t;
      WordLenAppend(w[1..], t);
    }
  }

  /** Joining well-formed words with single spaces and splitting again
      gives back the same words. */
  lemma {:induction false} SplitJoinWords(ws: seq<JsString>)
    requires forall i :: 0 <= i < |ws| ==> IsWord(ws[i])
    ensures SplitWords(Join(ws, Space)) == ws
    decreases |ws|
  {
    if ws != [] {
      var w := ws[0];
      var rest := if |ws| == 1 then [] else [Space] + Join(ws[1..], Space);
      var s := w + rest;
      assert s == Join(ws, Space);
      WordLenAppend(w, rest);
      assert WordLen(rest) == 0;
      assert s[..|w|] == w;
      assert s[|w|..] == rest;
      if |ws| > 1 {
        assert rest[1..] == Join(ws[1..], Space);
        SplitJoinWords(ws[1..]);
        assert SplitWords(rest) == SplitWords(Join(ws[1..], Space));
      }
      assert SplitWords(s) == [w] + SplitWords(rest);
    }
  }

  /** A word splits to itself. */
  lemma SplitWordsOfWord(w: JsString)
    requires IsWord(w)
    ensures SplitWords(w) == [w]
  {
    WordLenAppend(w, []);
    assert w + [] == w;
    assert w[..|w|] == w && w[|w|..] == [];
  }

  /** A run that ends inside `a` ends at the same place in `a + t`. */
  lemma {:induction false} WordLenPrefix(a: JsString, t: JsString)
    requires WordLen(a) < |a|
    ensures WordLen(a + t) == WordLen(a)
    decreases |a|
  {
    assert (a + t)[0] == a[0];
    if !IsSpace(a[0]) {
      assert (a + t)[1..] == a[1..] + t;
      WordLenPrefix(a[1..], t);
    }
  }

  /** Words break at every whitespace unit: the words of `a + [x] + b`,
      with `x` whitespace, are the words of `a` followed by those of `b`. */
  lemma {:induction false} SplitWordsAtSpace(a: JsString, x: Unit, b: JsString)
    requires IsSpace(x)
    ensures SplitWords(a + [x] + b) == SplitWords(a) + SplitWords(b)
    decreases |a|
  {
    var s := a + [x] + b;
    if a == [] {
      assert s[1..] == b;
    } else if IsSpace(a[0]) {
      assert s[0] == a[0] && s[1..] == a[1..] + [x] + b;
      SplitWordsAtSpace(a[1..], x, b);
    } else {
      var k := WordLen(a);
      assert s[0] == a[0];
      if k < |a| {
        assert s == a + ([x] + b);
        WordLenPrefix(a, [x] + b);
        assert s[..k] == a[..k];
        assert s[k..] == a[k..] + [x] + b;
        SplitWordsAtSpace(a[k..], x, b);
        ConsAppend(a[..k], SplitWords(a[k..]), SplitWords(b));
      } else {
        assert a[..k] == a;
        WordLenAppend(a, [x] + b);
        assert s == a + ([x] + b);
        assert s[..|a|] == a && s[|a|..] == [x] + b;
        assert ([x] + b)[1..] == b;
        SplitWordsOfWord(a);
      }
    }
  }

  /** `r` has no whitespace at either end, and each whitespace unit in it
      is a single `Space` between two non-whitespace units. */
  predicate SingleSpaced(r: JsString)
  {
    && (r != [] ==> !IsSpace(r[0]) && !IsSpace(r[|r| - 1]))
    && forall i :: 0 <= i < |r| && IsSpace(r[i]) ==>
         r[i] == Space && 0 < i < |r| - 1 && !IsSpace(r[i - 1]) && !IsSpace(r[i + 1])
  }

  /** Words joined by single spaces are single-spaced. */
  lemma {:induction false} JoinWordsSingleSpaced(ws: seq<JsString>)
    requires forall i :: 0 <= i < |ws| ==> IsWord(ws[i])
    ensures ws != [] ==> Join(ws, Space) != []
    ensures SingleSpaced(Join(ws, Space))
    decreases |ws|
  {
    if |ws| > 1 {
      var w, j := ws[0], Join(ws[1..], Space);
      JoinWordsSingleSpaced(ws[1..]);
      var r := w + [Space] + j;
      assert r == Join(ws, Space);
      assert forall i :: 0 <= i < |w| ==> r[i] == w[i];
      forall i | 0 <= i < |r| && IsSpace(r[i])
        ensures r[i] == Space && 0 < i < |r| - 1 && !IsSpace(r[i - 1]) && !IsSpace(r[i + 1])
      {
        if i > |w| {
          assert r[i] == j[i - |w| - 1];
          assert r[i + 1] == j[i - |w|];
          if i > |w| + 1 {
            assert r[i - 1] == j[i - |w| - 2];
          }
        }
      }
      assert r[|r| - 1] == j[|j| - 1];
    }
  }

  /** The whitespace-normalised form of a text: its words joined by single
      spaces, with no leading or trailing whitespace. */
  function Normalize(s: JsString): (r: JsString)
    ensures SplitWords(r) == SplitWords(s)
    ensures SingleSpaced(r)
  {
    SplitJoinWords(SplitWords(s));
    JoinWordsSingleSpaced(SplitWords(s));
    Join(SplitWords(s), Space)
  }

  /** Normalising keeps the word sequence, so it is idempotent. */
  lemma NormalizeKeepsWords(s: JsString)
    ensures SplitWords(Normalize(s)) == SplitWords(s)
    ensures Normalize(Normalize(s)) == Normalize(s)
  {
    SplitJoinWords(SplitWords(s));
  }

  /** Index of the first `sep` in `s`, or `|s|` when there is none. */
  function IndexOf(s: JsString, sep: Unit): (k: nat)
    ensures k <= |s|
    ensures forall i :: 0 <= i < k ==> s[i] != sep
    ensures k < |s| ==> s[k] == sep
  {
    if s == [] then 0
    else if s[0] == sep then 0
    else 1 + IndexOf(s[1..], sep)
  }

  /** `s.split(sep)` for a one-unit separator: the pieces between
      occurrences of `sep`, empty pieces included; never an empty list. */
  function SplitOn(s: JsString, sep: Unit): (ws: seq<JsString>)
    ensures |ws| >= 1
    ensures forall i :: 0 <= i < |ws| ==> sep !in ws[i]
    decreases |s|
  {
    var k := IndexOf(s, sep);
    if k == |s| then [s]
    else [s[..k]] + SplitOn(s[k + 1..], sep)
  }

  /** Joining the pieces with the separator gives back the input. */
  lemma {:induction false} JoinSplitOn(s: JsString, sep: Unit)
    ensures Join(SplitOn(s, sep), sep) == s
    decreases |s|
  {
    var k := IndexOf(s, sep);
    if k < |s| {
      var rest := SplitOn(s[k + 1..], sep);
      JoinSplitOn(s[k + 1..], sep);
      assert SplitOn(s, sep) == [s[..k]] + rest;
      assert ([s[..k]] + rest)[1..] == rest;
      assert s == s[..k] + [sep] + s[k + 1..];
    }
  }

  /** Splitting distributes over a separator: the pieces of `a + [sep] + b`
      are the pieces of `a` followed by the pieces of `b`. */
  lemma {:induction false} SplitOnAppend(a: JsString, b: JsString, sep: Unit)
    ensures SplitOn(a + [sep] + b, sep) == SplitOn(a, sep) + SplitOn(b, sep)
    decreases |a|
  {
    var ka := IndexOf(a, sep);
    if ka == |a| {
      SplitOnAppendFirst(a, b, sep);
    } else {
      SplitOnAppend(a[ka + 1..], b, sep);
      SplitOnAppendStep(a, b, sep, ka);
    }
  }

  /** The step of `SplitOnAppend` past the first separator of `a`, at
      position `k`, given the property for the rest of `a`. */
  lemma SplitOnAppendStep(a: JsString, b: JsString, sep: Unit, k: nat)
    requires k == IndexOf(a, sep) && k < |a|
    requires SplitOn(a[k + 1..] + [sep] + b, sep) == SplitOn(a[k + 1..], sep) + SplitOn(b, sep)
    ensures SplitOn(a + [sep] + b, sep) == SplitOn(a, sep) + SplitOn(b, sep)
  {
    SplitOnAt(a, sep, k);
    SplitOnAppendLater(a, b, sep, k);
    ConsAppend(a[..k], SplitOn(a[k + 1..], sep), SplitOn(b, sep));
  }

  lemma ConsAppend<T>(x: T, p: seq<T>, q: seq<T>)
    ensures [x] + (p + q) == ([x] + p) + q
  {
  }

  lemma SplitOnAppendFirst(a: JsString, b: JsString, sep: Unit)
    requires IndexOf(a, sep) == |a|
    ensures SplitOn(a + [sep] + b, sep) == SplitOn(a, sep) + SplitOn(b, sep)
  {
    var s := a + [sep] + b;
    assert s == a + ([sep] + b);
    IndexOfAppend(a, [sep] + b, sep);
    assert IndexOf([sep] + b, sep) == 0;
    SplitOnAt(s, sep, |a|);
    assert s[..|a|] == a;
    assert s[|a| + 1..] == b;
  }

  /** The first piece of `a + sep + b` is the first piece of `a` when `a`
      has a separator at `k`. */
  lemma SplitOnAppendLater(a: JsString, b: JsString, sep: Unit, k: nat)
    requires k == IndexOf(a, sep) && k < |a|
    ensures SplitOn(a + [sep] + b, sep) == [a[..k]] + SplitOn(a[k + 1..] + [sep] + b, sep)
  {
    var s := a + [sep] + b;
    assert s == a + ([sep] + b);
    IndexOfAppend(a, [sep] + b, sep);
    SplitOnAt(s, sep, k);
    assert s[..k] == a[..k];
    assert s[k + 1..] == a[k + 1..] + [sep] + b;
  }

  /** One step of `SplitOn` at the first separator, position `k`. */
  lemma SplitOnAt(s: JsString, sep: Unit, k: nat)
    requires k < |s| && IndexOf(s, sep) == k
    ensures SplitOn(s, sep) == [s[..k]] + SplitOn(s[k + 1..], sep)
  {
  }

  lemma {:induction false} IndexOfAppend(a: JsString, b: JsString, sep: Unit)
    ensures IndexOf(a, sep) < |a| ==> IndexOf(a + b, sep) == IndexOf(a, sep)
    ensures IndexOf(a, sep) == |a| ==> IndexOf(a + b, sep) == |a| + IndexOf(b, sep)
    decreases |a|
  {
    if a == [] {
      assert a + b == b;
    } else if a[0] != sep {
      assert (a + b)[0] == a[0];
      assert (a + b)[1..] == a[1..] + b;
      IndexOfAppend(a[1..], b, sep);
    } else {
      assert (a + b)[0] == a[0];
    }
  }

  /** Two separators in a row yield an empty piece between them. */
  lemma AdjacentSeparators(a: JsString, b: JsString, sep: Unit)
    ensures SplitOn(a + [sep, sep] + b, sep) == SplitOn(a, sep) + [[]] + SplitOn(b, sep)
  {
    assert a + [sep, sep] + b == a + [sep] + ([] + [sep] + b);
    SplitOnAppend(a, [] + [sep] + b, sep);
    SplitOnAppend([], b, sep);
    assert SplitOn([], sep) == [[]];
  }

  predicate IsHighSurrogate(u: int) { 0xD800 <= u <= 0xDBFF }

  predicate IsLowSurrogate(u: int) { 0xDC00 <= u <= 0xDFFF }

  /** No high surrogate is directly followed by a low surrogate: every code
      point of the string lies in the Basic Multilingual Plane. */
  predicate NoSurrogatePair(w: JsString)
  {
    forall i :: 0 <= i && i + 1 < |w| ==> !(IsHighSurrogate(w[i]) && IsLowSurrogate(w[i + 1]))
  }

  /** A slice of a text without surrogate pairs has none either. */
  lemma NoSurrogateSlice(w: JsString, lo: nat, hi: nat)
    requires NoSurrogatePair(w) && lo <= hi <= |w|
    ensures NoSurrogatePair(w[lo..hi])
  {
    forall i | 0 <= i && i + 1 < hi - lo
      ensures !(IsHighSurrogate(w[lo..hi][i]) && IsLowSurrogate(w[lo..hi][i + 1]))
    {
      assert w[lo..hi][i] == w[lo + i] && w[lo..hi][i + 1] == w[lo + i + 1];
    }
  }

  /** The words of a text without surrogate pairs have none either. */
  lemma {:induction false} SplitWordsNoSurrogate(s: JsString)
    requires NoSurrogatePair(s)
    ensures forall i :: 0 <= i < |SplitWords(s)| ==> NoSurrogatePair(SplitWords(s)[i])
    decreases |s|
  {
    if s != [] {
      if IsSpace(s[0]) {
        NoSurrogateSlice(s, 1, |s|);
        assert s[1..|s|] == s[1..];
        SplitWordsNoSurrogate(s[1..]);
      } else {
        var k := WordLen(s);
        NoSurrogateSlice(s, 0, k);
        NoSurrogateSlice(s, k, |s|);
        assert s[0..k] == s[..k] && s[k..|s|] == s[k..];
        SplitWordsNoSurrogate(s[k..]);
        var rest := SplitWords(s[k..]);
        assert SplitWords(s) == [s[..k]] + rest;
        forall i | 1 <= i < |SplitWords(s)|
          ensures NoSurrogatePair(SplitWords(s)[i])
        {
          assert SplitWords(s)[i] == rest[i - 1];
        }
      }
    }
  }

  /** The codes that iterating a string by code point and taking
      `charCodeAt(0)` of each yields: a surrogate pair contributes only its
      high unit. */
  function CharCodes(w: JsString): (r: seq<Unit>)
    ensures |r| <= |w|
    ensures NoSurrogatePair(w) ==> r == w
    decreases |w|
  {
    if w == [] then []
    else if |w| >= 2 && IsHighSurrogate(w[0]) && IsLowSurrogate(w[1]) then [w[0]] + CharCodes(w[2..])
    else
      assert NoSurrogatePair(w) ==> NoSurrogatePair(w[1..]) by {
        if NoSurrogatePair(w) {
          forall i | 0 <= i && i + 1 < |w[1..]|
            ensures !(IsHighSurrogate(w[1..][i]) && IsLowSurrogate(w[1..][i + 1]))
          {
            assert w[1..][i] == w[i + 1] && w[1..][i + 1] == w[i + 2];
          }
        }
      }
      [w[0]] + CharCodes(w[1..])
  }

  /** `String.fromCharCode(n)` for an integer `n`: ToUint16, i.e. `n`
      modulo 2^16 (never negative). */
  function FromCharCode(n: int): (u: Unit)
    ensures 0 <= n < 0x1_0000 ==> u == n
  {
    n % 0x1_0000
  }

  /** Each number rendered with `String.fromCharCode`, concatenated. */
  function Render(ns: seq<int>): (r: JsString)
    ensures |r| == |ns|
    ensures forall i :: 0 <= i < |ns| ==> r[i] == FromCharCode(ns[i])
    ensures forall i :: 0 <= i < |ns| && 0 <= ns[i] < 0x1_0000 ==> r[i] == ns[i]
  {
    seq(|ns|, i requires 0 <= i < |ns| => FromCharCode(ns[i]))
  }

  /** Rendering codes that are already code units is the identity. */
  lemma RenderUnits(us: seq<Unit>)
    ensures Render(us) == us
  {
  }
}

=== FILE: word_lists.dfy ===
/** The per-word list work that both versions of `Frase` share: building a
    word's list of offset codes, swapping it, rendering a deque of lists,
    and reading a list back with `forEach` while subtracting the offsets. */
module WordLists {
  import opened PairSwap
  import opened Text
  import opened Cipher
  import opened LinkedLists

  /** The inner loop of `encriptar`: a new list, and for each code point
      of the word a push of its code plus the running odd offset. Node `i`
      holds the code of the `i`-th code point plus `2i + 1`, and the list
      is a well-formed push-built list. */
  method BuildWordList(p: JsString) returns (lista: LinkedList)
    ensures Valid(lista) && TailAtEnd(lista)
    ensures Contents(lista) == AddOffsets(CharCodes(p), 1)
  {
    var codes: seq<int> := CharCodes(p);
    lista := Empty();
    var inc := 1;
    var i := 0;
    while i < |codes|
      invariant 0 <= i <= |codes|
      invariant inc == 2 * i + 1
      invariant Valid(lista) && TailAtEnd(lista)
      invariant Contents(lista) == AddOffsets(codes[..i], 1)
    {
      AddOffsetsSnoc(codes, i, 1);
      lista := PushBack(lista, codes[i] + inc);
      inc := inc + 2;
      i := i + 1;
    }
    assert codes[..i] == codes;
  }

  /** One more push extends the offset codes by the next one. */
  lemma AddOffsetsSnoc(codes: seq<int>, i: nat, inc: int)
    requires i < |codes|
    ensures AddOffsets(codes[..i + 1], inc) == AddOffsets(codes[..i], inc) + [codes[i] + inc + 2 * i]
  {
    var a, b := AddOffsets(codes[..i + 1], inc), AddOffsets(codes[..i], inc) + [codes[i] + inc + 2 * i];
    assert |a| == |b|;
    forall j | 0 <= j < |a|
      ensures a[j] == b[j]
    {
    }
  }

  /** The body of `encriptar`'s word loop: the word's list of offset codes,
      swapped once. */
  method EncryptWord(p: JsString) returns (lista: LinkedList)
    ensures Valid(lista)
    ensures Contents(lista) == EncodeWord(p)
  {
    lista := BuildWordList(p);
    lista := Swap(lista);
  }

  /** Every list of a deque is a valid list holding the matching entry of
      `lists`. */
  ghost predicate Holds(deque: seq<LinkedList>, lists: seq<seq<int>>)
  {
    && |deque| == |lists|
    && AllValid(deque)
    && (forall i :: 0 <= i < |deque| ==> Contents(deque[i]) == lists[i])
  }

  /** Every list of the deque is a valid list. */
  ghost predicate AllValid(deque: seq<LinkedList>)
  {
    forall i :: 0 <= i < |deque| ==> Valid(deque[i])
  }

  /** The values held by each list of a deque, in deque order. */
  ghost function ContentsAll(deque: seq<LinkedList>): (lists: seq<seq<int>>)
    requires AllValid(deque)
    ensures |lists| == |deque|
  {
    seq(|deque|, i requires 0 <= i < |deque| => Contents(deque[i]))
  }

  /** The values a deque holds are the ones `Holds` names. */
  lemma HoldsContents(deque: seq<LinkedList>, lists: seq<seq<int>>)
    requires Holds(deque, lists)
    ensures AllValid(deque) && ContentsAll(deque) == lists
  {
  }

  /** The loop of `encriptar` over the words: a fresh deque with, for each
      word in order, its list of offset codes swapped once. */
  method EncryptWords(palabras: seq<JsString>) returns (deque: seq<LinkedList>)
    ensures Holds(deque, EncodeAll(palabras))
  {
    deque := [];
    ghost var lists: seq<seq<int>> := [];
    var i := 0;
    while i < |palabras|
      invariant 0 <= i <= |palabras|
      invariant |lists| == i
      invariant forall j :: 0 <= j < i ==> lists[j] == EncodeWord(palabras[j])
      invariant Holds(deque, lists)
    {
      var lista := EncryptWord(palabras[i]);
      HoldsSnoc(deque, lists, lista);
      deque := deque + [lista];
      lists := lists + [EncodeWord(palabras[i])];
      i := i + 1;
    }
    assert lists == EncodeAll(palabras);
  }

  /** Appending a valid list to a deque appends its values. */
  lemma HoldsSnoc(deque: seq<LinkedList>, lists: seq<seq<int>>, l: LinkedList)
    requires Holds(deque, lists) && Valid(l)
    ensures Holds(deque + [l], lists + [Contents(l)])
  {
    var d, c := deque + [l], lists + [Contents(l)];
    forall i | 0 <= i < |d|
      ensures Valid(d[i]) && Contents(d[i]) == c[i]
    {
      if i < |deque| {
        assert d[i] == deque[i] && c[i] == lists[i];
      }
    }
  }

  /** The encrypted text: each list read with `toArray`, its values
      rendered with `String.fromCharCode`, and the renderings joined by
      single spaces. */
  method RenderDeque(deque: seq<LinkedList>) returns (text: JsString)
    requires AllValid(deque)
    ensures text == RenderAll(ContentsAll(deque))
  {
    var words: seq<JsString> := [];
    var i := 0;
    while i < |deque|
      invariant 0 <= i <= |deque|
      invariant |words| == i
      invariant forall j :: 0 <= j < i ==> words[j] == Render(Contents(deque[j]))
    {
      var arr := ToArray(deque[i]);
      words := words + [Render(arr)];
      i := i + 1;
    }
    var lists := ContentsAll(deque);
    assert words == seq(|lists|, j requires 0 <= j < |lists| => Render(lists[j]));
    text := Join(words, Space);
  }

  /** The callback of `desencriptar`'s `forEach`: it appends the value
      minus `inc` to `nums` and raises `inc` by 2. The closure's `nums` and
      `inc` are the threaded state; the index `forEach` passes is unused. */
  function SubtractStep(st: (seq<int>, int), v: int, i: nat): (seq<int>, int)
  {
    (st.0 + [v - st.1], st.1 + 2)
  }

  /** Folding the callback over values `vs` appends their codes with the
      running offsets subtracted and advances `inc` by 2 per value. */
  lemma {:induction false} FoldSubtract(acc: seq<int>, inc: int, vs: seq<int>, i: nat)
    ensures FoldVisits(SubtractStep, (acc, inc), vs, i) == (acc + SubOffsets(vs, inc), inc + 2 * |vs|)
    decreases |vs|
  {
    if vs != [] {
      var x := vs[0] - inc;
      FoldSubtract(acc + [x], inc + 2, vs[1..], i + 1);
      assert SubtractStep((acc, inc), vs[0], i) == (acc + [x], inc + 2);
      assert SubOffsets(vs, inc) == [x] + SubOffsets(vs[1..], inc + 2);
      assert acc + [x] + SubOffsets(vs[1..], inc + 2) == acc + ([x] + SubOffsets(vs[1..], inc + 2));
    } else {
      assert acc + SubOffsets(vs, inc) == acc;
    }
  }

  /** Reading a list with `forEach` and a callback that collects each
      value minus the running odd offset: the list's values with the
      offsets `2i + 1` taken off. */
  method SubtractOffsets(lista: LinkedList) returns (nums: seq<int>)
    requires WellFormed(lista)
    ensures nums == SubOffsets(Contents(lista), 1)
  {
    var st := ForEach(lista, SubtractStep, ([], 1));
    FoldSubtract([], 1, Contents(lista), 0);
    nums := st.0;
  }
}
